=== FILE: README.md ===
# Subtitle parser of Tube Archivist, modelled in Dafny

Tube Archivist downloads the subtitles of a video from YouTube. Automatic
captions arrive as *rolling* WebVTT: each cue repeats the lines of earlier
cues and adds a new one. `SubtitleParser` in
`tubearchivist/home/src/index/video.py` turns that text into one cue per
spoken line. It then writes the result as subtitle text and as an
Elasticsearch bulk request with one document per fragment.

The model follows the parser step by step:

- `Text`: the Python string operations the parser relies on.
  - `str.split` and `str.replace`, with the leftmost-match rule.
  - `str.strip`, `"sep".join`, `str(n)`.
  - `int(re.sub("[^0-9]", "", t))`, with `None` where Python raises.
- `Patterns`: the three fixed regular expressions (`time_reg`, `stamp_reg`,
  `tag_reg`).
  - Each is a list of tokens matched by one left-to-right scan. An optional
    character is always followed by a different required one, so taking it
    whenever it is present finds the only match.
  - `re.sub(p, "", line)` is `Erase`: from the left, a match is dropped and
    otherwise one character is kept.
- `Cues`: `_parse_cues` and `_cue_cleaner`.
  - The text is cut into a header and one cue per block.
  - Timing lines are recognised; inline stamps and `<c>` tags are stripped.
  - The pending list of text lines is built with its four-entry duplicate window.
- `Aligner`: `_match_text_lines`.
  - Each pending line goes to the last cue holding it.
  - That cue takes the start of the first cue holding the line.
  - The cue's lines leave the pending list.
  - Python's `matched` list holds references to the cue dicts, so the model
    keeps the cue list and the matches as indices into it.
- `Ids`: `_add_id`.
- `Overlaps`: `_timestamp_check`.
- `Pipeline`: `process`, which runs the steps in order and stops at the first
  exception. An exception is a `Fault`: the missing `start` of
  `_match_text_lines`, or a time `_timestamp_check` cannot read as an integer.
- `Output`: `get_subtitle_str`.
- `Bulk`: `create_bulk_import`, as the list of action and document records
  before `json.dumps`. The refresh time is a parameter.
- `Languages`: the subtitle choice of `YoutubeSubtitle`.
  - `sub_conf_parse`.
  - `_normalize_lang`, with the dict as its key order plus a map.
  - The user-first, automatic-caption-fallback loop of `get_subtitles`.

### Behaviour worth knowing

These are consequences of the code that a reader of the parser's names and
docstrings may not expect. The model follows the code in each case.

- **Matches and unique lines.** The docstring of `_match_text_lines`
  (`video.py:195`) speaks of matching unique text lines with timestamps. The
  code removes *all* lines of the chosen cue from the pending list, so one
  match can absorb several unique lines.
  - A cue with line `x` followed by a cue with lines `x` and `y` gives a
    single match: the second cue, stamped with the first cue's start
    (`Aligner.RollingCuesMerge`).
  - What holds is `Pipeline.RunCovers`: there are at most as many matches as
    pending lines, and every pending line is in some matched cue.
- **Ids.** `_add_id` (`video.py:228-231`) writes `idx + 1` into the cue that
  `matched[idx]` refers to. A cue matched at two positions therefore carries
  the id of the later one at both.
  - Matches a, b, a give ids 3, 2, 3 (`Ids.RepeatedMatchSharesId`).
  - Ids are 1..N exactly when no cue is matched twice (`Ids.AddIdsDistinct`).
- **Exceptions.** `process` (`video.py:160-165`) catches nothing. It raises
  `KeyError` when the first cue holding the head line has no start yet
  (`video.py:203`), and `TypeError`/`ValueError` when a time cannot be read
  (`video.py:217-224`).
  - The model returns these as `Err`.
  - `Pipeline.ProcessTimedOk` shows that input whose every block has a timing
    line never fails.
- **Written text.** `get_subtitle_str` (`video.py:233-243`) puts the id on a
  line of its own before the timing line. What is proved is the block
  structure (`Output.SubtitleTextSplit`, `Output.CueBodySplit`):
  - when the header does not end in a newline and no matched cue has an
    empty line or a newline inside a line, splitting at blank lines gives the
    header and one body per match;
  - splitting a body at newlines gives the id, the timing line and the cue's
    lines.
  - A cue whose block ends in a newline keeps an empty last line
    (`cue.split("\n")`, `video.py:176`), and its body then ends in a blank
    line, so the split at blank lines no longer separates the blocks cleanly.
- **Overlaps, not order.** `_timestamp_check` (`video.py:213-226`) only pulls
  an end back to the next matched start; it never moves a start.
  `Overlaps.FixOverlapsOrdered` states exactly that no matched cue ends after
  the next one starts. The matched cues need not be in time order: a line
  pending twice (its repeat lies outside the four-entry window) can match the
  same cue twice, e.g. matches 2, 1, 2, where cue 2 took cue 0's start and cue
  1 then ends where cue 2 starts, before its own start.

## Model

All source paths are in `tubearchivist/home/src/index/video.py`.

| member | source | states |
|---|---|---|
| Text.Split | tubearchivist/home/src/index/video.py:169 | `str.split` with a non-empty separator: at least one piece, no piece contains the separator, joining the pieces with the separator gives back the text, and every cut is at the leftmost occurrence (no occurrence starts inside a piece, even across the separator that follows it) |
| Text.SplitJoin | tubearchivist/home/src/index/video.py:169 | Splitting undoes joining when no piece contains the separator and none lets a separator start inside it at the join |
| Text.ReplaceAll | tubearchivist/home/src/index/video.py:169 | `str.replace` leaves text without the pattern unchanged |
| Text.ReplaceAllJoin | tubearchivist/home/src/index/video.py:169 | Replacing the pattern in pieces joined by it gives the same pieces joined by the replacement, when no piece lets the pattern start inside it |
| Text.Strip | tubearchivist/home/src/index/video.py:188 | `str.strip` leaves nothing exactly when the text is all white space; otherwise no white space is left at either end. What remains is one stretch of the text, and only white space lies before and after it |
| Text.StripUnique | tubearchivist/home/src/index/video.py:31 | Any stretch of the text with only white space around it and none at its own ends is what `strip` gives |
| Text.NumericDigits | tubearchivist/home/src/index/video.py:217 | The one-pass reading of a time equals keeping only the digits and reading them as a decimal number; it is `None` when there are no digits |
| Text.NumericSome | tubearchivist/home/src/index/video.py:217 | `int(re.sub("[^0-9]", "", t))` succeeds exactly when `t` holds a digit |
| Text.NatToString | tubearchivist/home/src/index/video.py:231 | `str(n)` is a non-empty string of digits that reads back as `n`, with no leading zero |
| Text.NatToStringInjective | tubearchivist/home/src/index/video.py:262 | Different numbers print differently |
| Patterns.ScanLocal | tubearchivist/home/src/index/video.py:148-150 | A match of a pattern that does not end in an optional character depends only on the characters it covers: the same characters anywhere else match the same way |
| Patterns.ScanSuffix | tubearchivist/home/src/index/video.py:185-186 | Matching at a position of a line is matching at the same place of the rest of the line: no pattern looks behind its match |
| Patterns.StampPrefix | tubearchivist/home/src/index/video.py:148 | A stamp followed by anything still matches as exactly that stamp |
| Patterns.StampMatched | tubearchivist/home/src/index/video.py:148-149 | The text a stamp match covers is itself a stamp |
| Patterns.DigitsAreNoStamp | tubearchivist/home/src/index/video.py:148 | Digits alone never make a stamp, since the pattern needs a '.' |
| Patterns.TimingStartIsStamp | tubearchivist/home/src/index/video.py:180-182 | The start taken from a recognised timing line is a stamp |
| Patterns.TimingEndIsStamp | tubearchivist/home/src/index/video.py:180-182 | The end taken from a recognised timing line is a stamp |
| Patterns.TimingOf | tubearchivist/home/src/index/video.py:180-183 | Recognising a timing line and taking its two stamps; its contract is carried by `Patterns.TimingOfShape`, `Patterns.TimingOfLine` and `Patterns.TimingOfIff` |
| Patterns.TimingOfShape | tubearchivist/home/src/index/video.py:180-183 | A recognised line begins with its start stamp, `" --> "` and its end stamp, both stamps; only cue settings may follow |
| Patterns.TimingOfIff | tubearchivist/home/src/index/video.py:180-183 | A line is recognised with stamps `t` exactly when it begins with `t.start`, `" --> "` and `t.end` and both are stamps |
| Patterns.TimingOfLine | tubearchivist/home/src/index/video.py:180-183 | Any line starting with two stamps around `" --> "` is a timing line with exactly those stamps, whatever cue settings follow |
| Patterns.ErasePlain | tubearchivist/home/src/index/video.py:185-186 | Text without '<' is kept by either pass, and erasing goes on behind it as if it were not there |
| Patterns.EraseSkip | tubearchivist/home/src/index/video.py:185-186 | A match at the front of the text is dropped whole |
| Patterns.StampTagMatch | tubearchivist/home/src/index/video.py:149 | `<` stamp `>` is one whole `stamp_reg` match |
| Patterns.ClassTagIsNoStamp | tubearchivist/home/src/index/video.py:149-150 | `<c>` and `</c>` are not `stamp_reg` matches |
| Patterns.StampPassKeepsClassTag | tubearchivist/home/src/index/video.py:185 | The stamp pass leaves `<c>` and `</c>` for the tag pass |
| Patterns.ClassTagMatch | tubearchivist/home/src/index/video.py:150 | `<c>` and `</c>` are whole `tag_reg` matches |
| Patterns.EraseStampsRender | tubearchivist/home/src/index/video.py:185 | The stamp pass removes exactly the inline stamps of a line and keeps everything else in order |
| Patterns.EraseTagsRender | tubearchivist/home/src/index/video.py:186 | On a line without inline stamps the tag pass keeps exactly the caption text |
| Patterns.CleanText | tubearchivist/home/src/index/video.py:185-186 | The two `re.sub` passes; their effect is stated by `Patterns.CleanTextRender`, `Patterns.EraseStampsRender` and `Patterns.EraseTagsRender` |
| Patterns.CleanTextRender | tubearchivist/home/src/index/video.py:185-186 | For a line built from caption text without `'<'`, inline stamps and `<c>`/`</c>` tags, cleaning removes exactly the stamps and tags and keeps the caption text in order |
| Patterns.ClassNameTagKept | tubearchivist/home/src/index/video.py:150 | A class tag with a name, such as `<c.colorE5E5E5>`, is not removed |
| Cues.BlankIffStripEmpty | tubearchivist/home/src/index/video.py:188 | A line counts as blank exactly when `strip` leaves nothing |
| Cues.Window | tubearchivist/home/src/index/video.py:188 | `all_text_lines[-4:]` holds exactly the last four entries, or all of them when there are fewer |
| Cues.Admit | tubearchivist/home/src/index/video.py:188-190 | Offering a cleaned line to the pending list; its contract is carried by `Cues.AdmitRule` |
| Cues.AdmitRule | tubearchivist/home/src/index/video.py:188-190 | A cleaned line is appended exactly when it is not blank and differs from each of the last four entries; otherwise the list is unchanged |
| Cues.AdmitAllFacts | tubearchivist/home/src/index/video.py:179-190 | The pending list holds exactly its earlier entries plus the non-blank offered lines, and a list without blank entries or equal entries within four positions stays so |
| Cues.AdmitTwice | tubearchivist/home/src/index/video.py:188 | Offering a line right after itself changes nothing |
| Cues.RepeatedLineAdmittedOnce | tubearchivist/home/src/index/video.py:188-190 | A line offered in any number of consecutive offers enters the pending list at most once |
| Cues.LastTimingIsLast | tubearchivist/home/src/index/video.py:179-183 | A block's timing is that of its last timing line; it is absent exactly when no line is a timing line |
| Cues.CleanLinesFacts | tubearchivist/home/src/index/video.py:179-192 | The line loop appends the block's cleaned non-timing lines, offers them in order to the pending list, keeps the id and leaves the last timing line's stamps |
| Cues.CueCleaner | tubearchivist/home/src/index/video.py:174-192 | `_cue_cleaner` gives the block's cue whatever the pending list holds, and offers that cue's lines in order |
| Cues.ParseBlocks | tubearchivist/home/src/index/video.py:172 | One cue per block, in order, and the pending list offered every cue line in order |
| Cues.ParseCues | tubearchivist/home/src/index/video.py:167-172 | The header is the first block after `"\n \n"` is folded and contains no `"\n\n"`; every later block becomes one cue |
| Cues.PendingFacts | tubearchivist/home/src/index/video.py:167-192 | After parsing, the pending list holds no blank entry, no two equal entries within four positions, and only lines some cue holds |
| Cues.ParsedCuesFresh | tubearchivist/home/src/index/video.py:177-183 | Every parsed cue has both stamps or neither, and no id |
| Cues.ParseEmpty | tubearchivist/home/src/index/video.py:167-172 | Empty text gives an empty header, no cues and no pending lines |
| Aligner.Step | tubearchivist/home/src/index/video.py:200-209 | One turn of the matching loop; its contract is carried by `Aligner.StepFails`, `Aligner.StepChosen`, `Aligner.StepUpdate`, `Aligner.StepKeeps` and `Aligner.StepShrinks` |
| Aligner.MatchLines | tubearchivist/home/src/index/video.py:194-211 | The matching loop; its contract is carried by the `Aligner.MatchLines…` lemmas below |
| Aligner.RemoveFirstAt | tubearchivist/home/src/index/video.py:206-209 | `list.remove` drops the first occurrence and keeps the others in place |
| Aligner.RemoveFirstCount | tubearchivist/home/src/index/video.py:207 | `list.remove` removes one copy when there is one |
| Aligner.RemoveEachCount | tubearchivist/home/src/index/video.py:205-209 | Removing the chosen cue's lines costs each line one pending copy per time it occurs in the cue, as far as copies are left |
| Aligner.RemoveEachShrinks | tubearchivist/home/src/index/video.py:205-209 | When one of the cue's lines is pending, the pending list gets shorter |
| Aligner.RemoveEachOrder | tubearchivist/home/src/index/video.py:205-209 | What stays pending keeps its relative order |
| Aligner.HoldersComplete | tubearchivist/home/src/index/video.py:201 | The list of cues holding a line misses none |
| Aligner.HoldersEnds | tubearchivist/home/src/index/video.py:201-203 | `matches[0]` is the first cue holding the line and `matches[-1]` the last |
| Aligner.CoveredAnchored | tubearchivist/home/src/index/video.py:201-202 | When every pending line is in some cue, `matches` is never empty, so `matches[-1]` cannot raise |
| Aligner.StepFails | tubearchivist/home/src/index/video.py:203 | A round raises exactly when the first cue holding the head line has no start, and the error names that line |
| Aligner.StepChosen | tubearchivist/home/src/index/video.py:202 | A round picks the last cue holding the head line |
| Aligner.StepUpdate | tubearchivist/home/src/index/video.py:202-203 | A round gives the chosen cue the first holder's start and changes nothing else |
| Aligner.StepKeeps | tubearchivist/home/src/index/video.py:200-211 | After a round the chosen cue has a start and holds the head line; every other cue is unchanged |
| Aligner.StepShrinks | tubearchivist/home/src/index/video.py:205-209 | A round shortens the pending list and removes only lines of the chosen cue |
| Aligner.MatchLinesOk | tubearchivist/home/src/index/video.py:199-211 | The loop fails only when some cue has no start |
| Aligner.MatchLinesKeeps | tubearchivist/home/src/index/video.py:199-211 | Matching keeps every cue's lines, end and id, and every start that was set |
| Aligner.MatchLinesCount | tubearchivist/home/src/index/video.py:199-211 | At most one match per pending line, at least one when a line is pending, and earlier matches stay in front |
| Aligner.MatchLinesValid | tubearchivist/home/src/index/video.py:199-211 | Every match refers to a cue that has a start |
| Aligner.MatchLinesCovers | tubearchivist/home/src/index/video.py:199-211 | Every pending line is among the lines of some match |
| Aligner.MatchLinesUntouched | tubearchivist/home/src/index/video.py:199-211 | A cue never matched is left as it was |
| Aligner.RollingCuesMerge | tubearchivist/home/src/index/video.py:199-211 | A cue with line x followed by one with x and y gives one match, the second cue with the first one's start |
| Ids.AddIds | tubearchivist/home/src/index/video.py:228-231 | Numbering the matches; its contract is carried by `Ids.AddIdsKeeps`, `Ids.AddIdsValue` and `Ids.AddIdsDistinct` |
| Ids.AddIdsKeeps | tubearchivist/home/src/index/video.py:228-231 | Numbering changes nothing but ids |
| Ids.AddIdsValue | tubearchivist/home/src/index/video.py:228-231 | The cue at the last position referring to it carries that position plus one; an unmatched cue keeps its id |
| Ids.AddIdsDistinct | tubearchivist/home/src/index/video.py:228-231 | When no cue is matched twice, position k carries id k + 1 |
| Ids.RepeatedMatchSharesId | tubearchivist/home/src/index/video.py:228-231 | Matches a, b, a leave ids 3, 2, 3 in match order |
| Overlaps.TimeValueSome | tubearchivist/home/src/index/video.py:217 | A time reads exactly when it is present and holds a digit |
| Overlaps.PullFacts | tubearchivist/home/src/index/video.py:224-226 | One pull changes at most the current cue's end, only to the next start, and only to an earlier time |
| Overlaps.FixFrom | tubearchivist/home/src/index/video.py:215-226 | The loop of `_timestamp_check` from one position on; its contract is carried by the `Overlaps.FixFrom…` lemmas below |
| Overlaps.FixFromOk | tubearchivist/home/src/index/video.py:215-226 | The check succeeds exactly when every matched end, and every matched start after the first, reads as a time |
| Overlaps.FixFromFault | tubearchivist/home/src/index/video.py:215-226 | A failure names the first position whose end or start cannot be read; every time before it reads |
| Overlaps.FixFromFields | tubearchivist/home/src/index/video.py:215-226 | The check keeps every cue's start, lines and id |
| Overlaps.FixFromEnds | tubearchivist/home/src/index/video.py:224-226 | A changed end is the start of the cue at the next position after one of the cue's own; other cues are unchanged |
| Overlaps.FixFromShrinks | tubearchivist/home/src/index/video.py:225-226 | Ends only move earlier |
| Overlaps.FixOverlaps | tubearchivist/home/src/index/video.py:213-226 | `_timestamp_check` keeps the match list and the number of cues |
| Overlaps.FixOverlapsOk | tubearchivist/home/src/index/video.py:213-226 | `_timestamp_check` succeeds exactly when every time it reads is readable |
| Overlaps.FixOverlapsOrdered | tubearchivist/home/src/index/video.py:213-226 | Afterwards no matched cue ends after the next matched cue starts, and no end grew |
| Overlaps.OverlapPulledBack | tubearchivist/home/src/index/video.py:224-226 | An end at 00:00:10.000 before a start at 00:00:08.000 becomes 00:00:08.000 |
| Pipeline.Process | tubearchivist/home/src/index/video.py:160-165 | A successful `process` keeps the parsed header, and every match refers to a cue |
| Pipeline.Run | tubearchivist/home/src/index/video.py:163-165 | A successful run keeps the header, and every match refers to a cue |
| Pipeline.ProcessRun | tubearchivist/home/src/index/video.py:160-165 | `process` is parsing followed by the run, and parsing provides what the matching loop needs |
| Pipeline.RunSteps | tubearchivist/home/src/index/video.py:160-165 | A successful run is matching, then numbering, then the overlap check, all successful |
| Pipeline.ProcessEmpty | tubearchivist/home/src/index/video.py:160-172 | Empty text processes to an empty header with no matches |
| Pipeline.MatchLinesStamped | tubearchivist/home/src/index/video.py:199-211 | Matching keeps stamped cues stamped |
| Pipeline.RunStampedOk | tubearchivist/home/src/index/video.py:160-226 | When every cue has both stamps, the run cannot fail |
| Pipeline.ProcessTimedOk | tubearchivist/home/src/index/video.py:160-226 | When every block after the header has a timing line, `process` cannot fail |
| Pipeline.ProcessFails | tubearchivist/home/src/index/video.py:160-226 | A failing `process` implies some block after the header lacks a timing line |
| Pipeline.RunCovers | tubearchivist/home/src/index/video.py:194-211 | No more matches than pending lines, and every pending line is in a matched cue |
| Pipeline.RunOrderedAndNumbered | tubearchivist/home/src/index/video.py:213-231 | After `process` no matched cue ends after the cue at the next position starts, and each cue carries its last position plus one |
| Output.SubtitleText | tubearchivist/home/src/index/video.py:233-243 | The text is the header and the matched cues' bodies joined by blank lines, closed by one blank line |
| Output.StitchJoin | tubearchivist/home/src/index/video.py:233-243 | The text is the header and the cue bodies joined by blank lines, followed by one blank line |
| Output.SubtitleTextSplit | tubearchivist/home/src/index/video.py:233-243 | When the header lets no blank line start inside it and no matched body holds a blank line, splitting the text at blank lines gives back the header, one body per match and an empty tail |
| Output.CueBodySplit | tubearchivist/home/src/index/video.py:238-240 | When the timing line and the cue's lines hold no newline, splitting a body at newlines gives back the id, the timing line and the cue's lines |
| Output.CueBodyLone | tubearchivist/home/src/index/video.py:238-240 | A cue with non-empty, newline-free lines and times has no blank line in its body |
| Bulk.BulkEntries | tubearchivist/home/src/index/video.py:245-279 | The bulk request's entries; their shape is stated by `Bulk.BulkShape` and `Bulk.FragmentsAt` |
| Bulk.FragmentsAt | tubearchivist/home/src/index/video.py:260-274 | Match k becomes entries 2k and 2k+1: the action naming the fragment id, then the document with the cue's times, id and joined lines |
| Bulk.BulkShape | tubearchivist/home/src/index/video.py:245-279 | Two entries per match and a final closing entry; each action and its document agree on the fragment id |
| Bulk.FragmentIndexRoundTrip | tubearchivist/home/src/index/video.py:262 | The index is read back from the end of a fragment id, whatever the video id and language |
| Bulk.FragmentIdInjective | tubearchivist/home/src/index/video.py:262 | For one video and language, fragment ids with different indexes differ |
| Bulk.NumberedFragments | tubearchivist/home/src/index/video.py:260-272 | With numbered cues each document's index and fragment id give back the position plus one; without repeated cues all fragment ids differ |
| Bulk.RunFragments | tubearchivist/home/src/index/video.py:245-279 | For the result of `process` each fragment id reads back as the last position of its cue plus one |
| Languages.ParseLanguages | tubearchivist/home/src/index/video.py:27-31 | An empty setting configures no languages; otherwise there is one stripped entry per comma-separated piece |
| Languages.ParseLanguagesRoundTrip | tubearchivist/home/src/index/video.py:27-31 | The languages are trimmed; without surrounding white space, joining them with commas gives back the setting |
| Languages.NormalizeLang | tubearchivist/home/src/index/video.py:75-89 | `None` exactly for an empty dict; the contents otherwise are stated by `Languages.NormalizeLangSpec` |
| Languages.NormalizeStep | tubearchivist/home/src/index/video.py:82-86 | One turn removes the key and, unless its prefix is `live_chat`, stores the removed value under the prefix; every other entry is unchanged |
| Languages.Donor | tubearchivist/home/src/index/video.py:81-86 | The last hyphenated key with a given prefix, and no later one, or none at all |
| Languages.NormalizeLangSpec | tubearchivist/home/src/index/video.py:75-89 | `None` exactly for an empty dict. Otherwise the keys are the key prefixes other than `live_chat`; a prefix of a hyphenated key takes the last such key's value, and any other language keeps its own |
| Languages.NormalizeSettled | tubearchivist/home/src/index/video.py:75-89 | A dict of bare languages other than `live_chat` comes back unchanged |
| Languages.NormalizeLangIdempotent | tubearchivist/home/src/index/video.py:75-97 | Normalizing the normalized dict again, as each `get_user_subtitles` call does, changes nothing, except that an emptied dict now reads as missing |
| Languages.NormalizeCountryWins | tubearchivist/home/src/index/video.py:81-86 | For any language without a hyphen other than `live_chat`, `{lang-country: a, lang: b}` becomes `{lang: a}`: the country key wins even though the bare key comes later |
| Languages.EnglishCountryWins | tubearchivist/home/src/index/video.py:81-86 | `{"en-US": a, "en": b}` becomes `{"en": a}` |
| Languages.Pick | tubearchivist/home/src/index/video.py:42-50 | The uploaded subtitle wins; without one, the automatic caption is taken when the source setting is `"auto"`, and nothing otherwise |
| Languages.Select | tubearchivist/home/src/index/video.py:40-52 | The loop keeps at most one subtitle per configured language; its contents are stated by `Languages.SelectChosen` |
| Languages.SelectChosen | tubearchivist/home/src/index/video.py:40-52 | The result holds, in configuration order, the subtitle of exactly the languages that have one |
| Languages.SelectUserOnly | tubearchivist/home/src/index/video.py:42-50 | Unless the source setting is `"auto"`, every chosen subtitle was uploaded by the channel |
| Languages.SelectAutoFallback | tubearchivist/home/src/index/video.py:47-50 | With the source setting `"auto"`, a language without an uploaded subtitle contributes its automatic caption at its place among the chosen positions, and nothing when there is none |
| Languages.SelectAllUser | tubearchivist/home/src/index/video.py:40-45 | When every language has an uploaded subtitle, the result is those subtitles in order |
| Languages.GetSubtitles | tubearchivist/home/src/index/video.py:33-52 | Nothing is fetched exactly when the setting is empty; otherwise at most one subtitle per configured language |

## Left out

- Downloading and writing subtitles (`download_subtitles`, `_write_subtitle_file`) and posting the bulk request (`_index_subtitle`): these are network and file I/O.
- `json.dumps` and the newline join of the bulk request: entries are kept as records, and the refresh time from `datetime.now()` is a parameter.
- `get_user_subtitles` and `get_auto_caption`, apart from the repeated normalization: picking the first `vtt` format and rewriting `media_url` read video metadata, so in `Languages.Select` they are the parameters `user` and `auto`.
- The general regular-expression engine: only the three fixed patterns are modelled, as scanners.
- The channel record in `create_bulk_import` is assumed present; a missing `channel` would raise `AttributeError` there.
- Patterns.CleanTextRender: stated only for lines built from caption text without `'<'`, inline stamps and `<c>`/`</c>` tags. Markup nested inside markup is not covered: in `"<<c>00:00:00.000>"` the tag pass leaves a stamp `"<00:00:00.000>"` behind, which the earlier stamp pass did not see.
- `Languages.ParseLanguages`: stated per piece; no claim is made about commas inside the stripped entries.
- `Languages.NormalizeLangSpec`: the dict's key order after normalization is not modelled, only its contents.
- The rest of `video.py` (`YoutubeVideo`, `index_new_video`) is not part of this model.

=== FILE: aligner.dfy ===
/** `_match_text_lines`: each pending line, taken from the front, is given the
    last cue holding it, stamped with the start of the first cue holding it;
    the lines of the chosen cue then leave the pending list. */
module Aligner {
  import opened Wrappers
  import opened Cues

  // ---------------------------------------------------------------------------
  // list.remove

  /** `p.remove(x)` with `ValueError` ignored: the first occurrence of `x` is
      dropped, and nothing happens when there is none. */
  function RemoveFirst<T(==)>(p: seq<T>, x: T): (r: seq<T>)
    ensures x !in p ==> r == p
    ensures x in p ==> |r| == |p| - 1
    decreases |p|
  {
    if |p| == 0 then []
    else if p[0] == x then p[1..]
    else [p[0]] + RemoveFirst(p[1..], x)
  }

  /** The position of the first occurrence of `x`. */
  function IndexOf<T(==)>(p: seq<T>, x: T): (i: nat)
    requires x in p
    ensures i < |p| && p[i] == x && x !in p[..i]
  {
    if p[0] == x then 0
    else
      var i := 1 + IndexOf(p[1..], x);
      assert p[..i] == [p[0]] + p[1..][..i - 1];
      i
  }

  /** The entry dropped is the first occurrence; the others stay in place. */
  lemma {:induction false} RemoveFirstAt<T>(p: seq<T>, x: T)
    requires x in p
    ensures RemoveFirst(p, x) == p[..IndexOf(p, x)] + p[IndexOf(p, x) + 1..]
    decreases |p|
  {
    if p[0] != x {
      var q := p[1..];
      RemoveFirstAt(q, x);
      var i := IndexOf(q, x);
      assert RemoveFirst(p, x) == [p[0]] + RemoveFirst(q, x);
      assert IndexOf(p, x) == i + 1;
      assert p == [p[0]] + q;
      DropAfterCons(p[0], q, i);
    }
  }

  /** Dropping position `i` of `q` and then putting `a` in front is dropping
      position `i + 1` of `[a] + q`. */
  lemma DropAfterCons<T>(a: T, q: seq<T>, i: nat)
    requires i < |q|
    ensures [a] + (q[..i] + q[i + 1..]) == ([a] + q)[..i + 1] + ([a] + q)[i + 2..]
  {
    assert ([a] + q)[..i + 1] == [a] + q[..i];
    assert ([a] + q)[i + 2..] == q[i + 1..];
  }

  /** Removing a first occurrence removes one copy, as a multiset. */
  lemma RemoveFirstCount<T>(p: seq<T>, x: T)
    ensures x in p ==> multiset(p) == multiset(RemoveFirst(p, x)) + multiset{x}
  {
    if x in p {
      RemoveFirstAt(p, x);
      var i := IndexOf(p, x);
      assert p == p[..i] + [x] + p[i + 1..];
    }
  }

  /** The lines of the chosen cue, removed one after the other. */
  function RemoveEach<T(==)>(p: seq<T>, ls: seq<T>): (r: seq<T>)
    ensures |r| <= |p|
    decreases |ls|
  {
    if |ls| == 0 then p else RemoveEach(RemoveFirst(p, ls[0]), ls[1..])
  }

  /** `a - b`, or nothing when `b` is larger. */
  function Excess(a: nat, b: nat): nat {
    if a > b then a - b else 0
  }

  /** The pending list loses one copy of a line for each time the line is
      removed, as far as copies are left. */
  lemma {:induction false} RemoveEachCount<T>(p: seq<T>, ls: seq<T>, y: T)
    ensures multiset(RemoveEach(p, ls))[y] == Excess(multiset(p)[y], multiset(ls)[y])
    decreases |ls|
  {
    if |ls| > 0 {
      var r1 := RemoveFirst(p, ls[0]);
      RemoveFirstCount(p, ls[0]);
      RemoveEachCount(r1, ls[1..], y);
      assert ls == [ls[0]] + ls[1..];
      assert multiset(ls)[y] == multiset(ls[1..])[y] + (if y == ls[0] then 1 else 0);
      assert multiset(r1)[y] == multiset(p)[y] - (if y == ls[0] && ls[0] in p then 1 else 0);
    }
  }

  /** Whenever one of the removed lines is pending, the list gets shorter. */
  lemma {:induction false} RemoveEachShrinks<T>(p: seq<T>, ls: seq<T>, x: T)
    requires x in p && x in ls
    ensures |RemoveEach(p, ls)| < |p|
    decreases |ls|
  {
    if ls[0] in p {
      assert |RemoveFirst(p, ls[0])| < |p|;
    } else {
      assert x in ls[1..] by {
        assert ls == [ls[0]] + ls[1..];
      }
      RemoveEachShrinks(p, ls[1..], x);
    }
  }

  /** Only removed lines can leave the pending list. */
  lemma RemoveEachKeeps<T>(p: seq<T>, ls: seq<T>, x: T)
    requires x in p && x !in ls
    ensures x in RemoveEach(p, ls)
  {
    RemoveEachCount(p, ls, x);
  }

  /** No line is added. */
  lemma RemoveEachSubset<T>(p: seq<T>, ls: seq<T>, x: T)
    requires x in RemoveEach(p, ls)
    ensures x in p
  {
    RemoveEachCount(p, ls, x);
  }

  // ---------------------------------------------------------------------------
  // Order of what is left

  /** `a` is `b` with some entries dropped, the rest in the same order. */
  predicate Subseq<T(==)>(a: seq<T>, b: seq<T>)
    decreases |b|
  {
    if |b| == 0 then |a| == 0
    else (|a| > 0 && a[0] == b[0] && Subseq(a[1..], b[1..])) || Subseq(a, b[1..])
  }

  lemma {:induction false} SubseqRefl<T>(a: seq<T>)
    ensures Subseq(a, a)
    decreases |a|
  {
    if |a| > 0 {
      SubseqRefl(a[1..]);
    }
  }

  lemma {:induction false} SubseqTrans<T>(a: seq<T>, b: seq<T>, c: seq<T>)
    requires Subseq(a, b) && Subseq(b, c)
    ensures Subseq(a, c)
    decreases |c|
  {
    if |c| > 0 {
      if Subseq(b, c[1..]) {
        SubseqTrans(a, b, c[1..]);
      } else if |a| > 0 && a[0] == b[0] && Subseq(a[1..], b[1..]) {
        SubseqTrans(a[1..], b[1..], c[1..]);
      } else {
        SubseqTrans(a, b[1..], c[1..]);
      }
    }
  }

  lemma {:induction false} RemoveFirstOrder<T>(p: seq<T>, x: T)
    ensures Subseq(RemoveFirst(p, x), p)
    decreases |p|
  {
    if |p| > 0 {
      if p[0] == x {
        SubseqRefl(p[1..]);
      } else {
        RemoveFirstOrder(p[1..], x);
        assert ([p[0]] + RemoveFirst(p[1..], x))[1..] == RemoveFirst(p[1..], x);
      }
    }
  }

  /** What is left of the pending list keeps its relative order. */
  lemma {:induction false} RemoveEachOrder<T>(p: seq<T>, ls: seq<T>)
    ensures Subseq(RemoveEach(p, ls), p)
    decreases |ls|
  {
    if |ls| == 0 {
      SubseqRefl(p);
    } else {
      RemoveFirstOrder(p, ls[0]);
      RemoveEachOrder(RemoveFirst(p, ls[0]), ls[1..]);
      SubseqTrans(RemoveEach(p, ls), RemoveFirst(p, ls[0]), p);
    }
  }

  // ---------------------------------------------------------------------------
  // The cues holding a line

  /** `[i for i in cues if line in i["lines"]]`, as ascending indices from `from`. */
  function Holders(cues: seq<Cue>, line: string, from: nat): (r: seq<nat>)
    ensures forall k :: 0 <= k < |r| ==> from <= r[k] < |cues| && line in cues[r[k]].lines
    ensures forall k, l :: 0 <= k < l < |r| ==> r[k] < r[l]
    decreases |cues| - from
  {
    if from >= |cues| then []
    else (if line in cues[from].lines then [from] else []) + Holders(cues, line, from + 1)
  }

  /** `Holders` misses no cue holding the line. */
  lemma {:induction false} HoldersComplete(cues: seq<Cue>, line: string, from: nat, i: nat)
    requires from <= i < |cues| && line in cues[i].lines
    ensures i in Holders(cues, line, from)
    decreases |cues| - from
  {
    if from < i {
      HoldersComplete(cues, line, from + 1, i);
    }
  }

  /** The first entry of `Holders` is the lowest index holding the line, the
      last is the highest. */
  lemma HoldersEnds(cues: seq<Cue>, line: string)
    requires |Holders(cues, line, 0)| > 0
    ensures var h := Holders(cues, line, 0);
      && (forall j :: 0 <= j < h[0] ==> line !in cues[j].lines)
      && (forall j :: h[|h| - 1] < j < |cues| ==> line !in cues[j].lines)
  {
    var h := Holders(cues, line, 0);
    forall j | 0 <= j < |cues| && line in cues[j].lines
      ensures h[0] <= j <= h[|h| - 1]
    {
      HoldersComplete(cues, line, 0, j);
      var k :| 0 <= k < |h| && h[k] == j;
    }
  }

  /** When some cue holds the line, `Holders` is not empty. */
  lemma HoldersNonEmpty(cues: seq<Cue>, line: string)
    requires exists i :: 0 <= i < |cues| && line in cues[i].lines
    ensures |Holders(cues, line, 0)| > 0
  {
    var i :| 0 <= i < |cues| && line in cues[i].lines;
    HoldersComplete(cues, line, 0, i);
  }

  /** `a` and `b` have the same number of cues with the same lines. */
  predicate SameLines(a: seq<Cue>, b: seq<Cue>) {
    |a| == |b| && forall i :: 0 <= i < |a| ==> a[i].lines == b[i].lines
  }

  /** `Holders` looks at the lines only. */
  lemma {:induction false} HoldersSameLines(a: seq<Cue>, b: seq<Cue>, line: string, from: nat)
    requires SameLines(a, b)
    ensures Holders(a, line, from) == Holders(b, line, from)
    decreases |a| - from
  {
    if from < |a| {
      HoldersSameLines(a, b, line, from + 1);
    }
  }

  /** Every pending line is held by some cue: the search of one round never
      comes back empty. */
  predicate Anchored(cues: seq<Cue>, pending: seq<string>) {
    forall x :: x in pending ==> Holders(cues, x, 0) != []
  }

  /** The parser's guarantee gives the matching loop what it needs. */
  lemma CoveredAnchored(cues: seq<Cue>, pending: seq<string>)
    requires Covered(cues, pending)
    ensures Anchored(cues, pending)
  {
    forall x | x in pending
      ensures Holders(cues, x, 0) != []
    {
      HoldersNonEmpty(cues, x);
    }
  }

  // ---------------------------------------------------------------------------
  // One round of the loop and the whole loop

  /** Why processing stops: the `KeyError` of reading a missing `start`, or the
      failure to read a time as a number in the overlap pass. */
  datatype Fault = MissingStart(line: string) | NotATime(position: nat)

  /** One round: the updated cues, the pending list left, the chosen index. */
  datatype Round = Round(cues: seq<Cue>, pending: seq<string>, chosen: nat)

  /** The lowest index of a cue holding `line`. */
  predicate FirstHolder(cues: seq<Cue>, line: string, f: nat) {
    f < |cues| && line in cues[f].lines && forall j :: 0 <= j < f ==> line !in cues[j].lines
  }

  /** The highest index of a cue holding `line`. */
  predicate LastHolder(cues: seq<Cue>, line: string, k: nat) {
    k < |cues| && line in cues[k].lines && forall j :: k < j < |cues| ==> line !in cues[j].lines
  }

  /** One iteration of the `while` loop. */
  function Step(cues: seq<Cue>, pending: seq<string>): Result<Round, Fault>
    requires |pending| > 0 && Anchored(cues, pending)
  {
    var check := pending[0];
    assert check in pending;
    var h := Holders(cues, check, 0);
    var k := h[|h| - 1];
    match cues[h[0]].start
    case None => Err(MissingStart(check))
    case Some(st) =>
      var chosen := cues[k].(start := Some(st));
      Ok(Round(cues[k := chosen], RemoveEach(pending, chosen.lines), k))
  }

  /** A round fails exactly when the first cue holding the head line has no
      start, and the failure names that line. */
  lemma StepFails(cues: seq<Cue>, pending: seq<string>, f: nat)
    requires |pending| > 0 && Anchored(cues, pending)
    requires FirstHolder(cues, pending[0], f)
    ensures Step(cues, pending).Err? <==> cues[f].start.None?
    ensures Step(cues, pending).Err? ==> Step(cues, pending).error == MissingStart(pending[0])
  {
    assert pending[0] in pending;
    HoldersEnds(cues, pending[0]);
    var h := Holders(cues, pending[0], 0);
    assert f == h[0];
  }

  /** The first cue holding the head line exists. */
  lemma FirstHolderExists(cues: seq<Cue>, pending: seq<string>)
    requires |pending| > 0 && Anchored(cues, pending)
    ensures FirstHolder(cues, pending[0], Holders(cues, pending[0], 0)[0])
  {
    assert pending[0] in pending;
    HoldersEnds(cues, pending[0]);
  }

  /** A successful round picks the last cue holding the head line. */
  lemma StepChosen(cues: seq<Cue>, pending: seq<string>)
    requires |pending| > 0 && Anchored(cues, pending)
    requires Step(cues, pending).Ok?
    ensures LastHolder(cues, pending[0], Step(cues, pending).value.chosen)
  {
    assert pending[0] in pending;
    HoldersEnds(cues, pending[0]);
  }

  /** A successful round gives the chosen cue the start of the first cue
      holding the head line and changes nothing else in the cue list. */
  lemma StepUpdate(cues: seq<Cue>, pending: seq<string>, f: nat)
    requires |pending| > 0 && Anchored(cues, pending)
    requires FirstHolder(cues, pending[0], f)
    requires Step(cues, pending).Ok?
    ensures var rd := Step(cues, pending).value;
      && rd.chosen < |cues|
      && rd.cues == cues[rd.chosen := cues[rd.chosen].(start := cues[f].start)]
  {
    assert pending[0] in pending;
    HoldersEnds(cues, pending[0]);
    var h := Holders(cues, pending[0], 0);
    assert f == h[0];
  }

  /** The chosen cue's lines leave the pending list. */
  lemma StepPending(cues: seq<Cue>, pending: seq<string>)
    requires |pending| > 0 && Anchored(cues, pending)
    requires Step(cues, pending).Ok?
    ensures var rd := Step(cues, pending).value;
      rd.chosen < |cues| && rd.pending == RemoveEach(pending, cues[rd.chosen].lines)
  {
    assert pending[0] in pending;
  }

  /** What the matching loop keeps: the cue list has the same length, and
      every cue keeps its lines, `end` and `id`; a set `start` stays set. */
  predicate Keeps(before: seq<Cue>, after: seq<Cue>) {
    && |after| == |before|
    && forall i :: 0 <= i < |before| ==>
      && after[i].lines == before[i].lines && after[i].end == before[i].end && after[i].id == before[i].id
      && (before[i].start.Some? ==> after[i].start.Some?)
  }

  /** A round changes the `start` of the chosen cue only, and afterwards that
      cue has a start and holds the head line. */
  lemma StepKeeps(cues: seq<Cue>, pending: seq<string>)
    requires |pending| > 0 && Anchored(cues, pending)
    requires Step(cues, pending).Ok?
    ensures var rd := Step(cues, pending).value;
      && rd.chosen < |cues|
      && Keeps(cues, rd.cues)
      && rd.cues[rd.chosen].start.Some?
      && pending[0] in rd.cues[rd.chosen].lines
      && (forall i :: 0 <= i < |cues| && i != rd.chosen ==> rd.cues[i] == cues[i])
  {
    assert pending[0] in pending;
    var h := Holders(cues, pending[0], 0);
    var k := h[|h| - 1];
    var rd := Step(cues, pending).value;
    assert rd.chosen == k;
    forall i | 0 <= i < |cues|
      ensures rd.cues[i].lines == cues[i].lines && rd.cues[i].end == cues[i].end && rd.cues[i].id == cues[i].id
      ensures cues[i].start.Some? ==> rd.cues[i].start.Some?
    {
      if i != k {
        assert rd.cues[i] == cues[i];
      }
    }
  }

  /** A round removes the head line and only lines of the chosen cue. */
  lemma StepShrinks(cues: seq<Cue>, pending: seq<string>)
    requires |pending| > 0 && Anchored(cues, pending)
    requires Step(cues, pending).Ok?
    ensures var rd := Step(cues, pending).value;
      && rd.chosen < |cues|
      && |rd.pending| < |pending|
      && (forall x :: x in pending ==> x in rd.pending || x in cues[rd.chosen].lines)
  {
    StepKeeps(cues, pending);
    var rd := Step(cues, pending).value;
    var ls := cues[rd.chosen].lines;
    RemoveEachShrinks(pending, ls, pending[0]);
    forall x | x in pending && x !in ls
      ensures x in rd.pending
    {
      RemoveEachKeeps(pending, ls, x);
    }
  }

  /** After a round every line still pending is still held by some cue. */
  lemma StepAnchored(cues: seq<Cue>, pending: seq<string>)
    requires |pending| > 0 && Anchored(cues, pending)
    requires Step(cues, pending).Ok?
    ensures Anchored(Step(cues, pending).value.cues, Step(cues, pending).value.pending)
  {
    StepKeeps(cues, pending);
    var rd := Step(cues, pending).value;
    var ls := cues[rd.chosen].lines;
    assert SameLines(cues, rd.cues);
    forall x | x in rd.pending
      ensures Holders(rd.cues, x, 0) != []
    {
      RemoveEachSubset(pending, ls, x);
      HoldersSameLines(cues, rd.cues, x, 0);
    }
  }

  /** The state the loop carries on with after a successful round. */
  lemma StepNext(cues: seq<Cue>, pending: seq<string>)
    requires |pending| > 0 && Anchored(cues, pending)
    requires Step(cues, pending).Ok?
    ensures var rd := Step(cues, pending).value;
      |rd.pending| < |pending| && Anchored(rd.cues, rd.pending) && |rd.cues| == |cues| && rd.chosen < |cues|
  {
    StepShrinks(cues, pending);
    StepAnchored(cues, pending);
    StepKeeps(cues, pending);
  }

  /** The parsed cues after matching, and the matched cues as indices into
      them (one cue may be matched more than once). */
  datatype Aligned = Aligned(cues: seq<Cue>, matched: seq<nat>)

  predicate ValidIndices(cues: seq<Cue>, m: seq<nat>) {
    forall k :: 0 <= k < |m| ==> m[k] < |cues|
  }

  /** The `while self.all_text_lines` loop, continuing after the matches
      already made. */
  function MatchLines(cues: seq<Cue>, pending: seq<string>, matched: seq<nat>): Result<Aligned, Fault>
    requires Anchored(cues, pending)
    decreases |pending|
  {
    if |pending| == 0 then Ok(Aligned(cues, matched))
    else
      match Step(cues, pending)
      case Err(e) => Err(e)
      case Ok(rd) =>
        StepNext(cues, pending);
        MatchLines(rd.cues, rd.pending, matched + [rd.chosen])
  }

  /** The loop fails only when some cue has no start, so it cannot fail when
      every cue has one. */
  lemma {:induction false} MatchLinesOk(cues: seq<Cue>, pending: seq<string>, matched: seq<nat>)
    requires Anchored(cues, pending)
    ensures (forall i :: 0 <= i < |cues| ==> cues[i].start.Some?) ==> MatchLines(cues, pending, matched).Ok?
    ensures MatchLines(cues, pending, matched).Err? ==> exists i :: 0 <= i < |cues| && cues[i].start.None?
    decreases |pending|
  {
    if |pending| > 0 {
      FirstHolderExists(cues, pending);
      StepFails(cues, pending, Holders(cues, pending[0], 0)[0]);
      if Step(cues, pending).Ok? {
        StepNext(cues, pending);
        StepKeeps(cues, pending);
        var rd := Step(cues, pending).value;
        MatchLinesOk(rd.cues, rd.pending, matched + [rd.chosen]);
      }
    }
  }

  lemma KeepsTrans(a: seq<Cue>, b: seq<Cue>, c: seq<Cue>)
    requires Keeps(a, b) && Keeps(b, c)
    ensures Keeps(a, c)
  {
  }

  /** Matching keeps every cue's lines, `end` and `id`, and every set `start`. */
  lemma {:induction false} MatchLinesKeeps(cues: seq<Cue>, pending: seq<string>, matched: seq<nat>)
    requires Anchored(cues, pending)
    requires MatchLines(cues, pending, matched).Ok?
    ensures Keeps(cues, MatchLines(cues, pending, matched).value.cues)
    decreases |pending|
  {
    if |pending| == 0 {
      assert Keeps(cues, cues);
    } else {
      StepNext(cues, pending);
      StepKeeps(cues, pending);
      var rd := Step(cues, pending).value;
      MatchLinesKeeps(rd.cues, rd.pending, matched + [rd.chosen]);
      KeepsTrans(cues, rd.cues, MatchLines(cues, pending, matched).value.cues);
    }
  }

  /** The loop appends at most one match per pending line, and at least one
      when a line is pending; the earlier matches stay in front. */
  lemma {:induction false} MatchLinesCount(cues: seq<Cue>, pending: seq<string>, matched: seq<nat>)
    requires Anchored(cues, pending)
    requires MatchLines(cues, pending, matched).Ok?
    ensures var a := MatchLines(cues, pending, matched).value;
      && |matched| <= |a.matched| <= |matched| + |pending|
      && (|pending| > 0 ==> |a.matched| > |matched|)
      && (forall k :: 0 <= k < |matched| ==> a.matched[k] == matched[k])
      && |a.cues| == |cues|
    decreases |pending|
  {
    if |pending| > 0 {
      StepNext(cues, pending);
      var rd := Step(cues, pending).value;
      MatchLinesCount(rd.cues, rd.pending, matched + [rd.chosen]);
    }
  }

  /** Every match is a valid index of a cue that has a start. */
  lemma {:induction false} MatchLinesValid(cues: seq<Cue>, pending: seq<string>, matched: seq<nat>)
    requires Anchored(cues, pending)
    requires ValidIndices(cues, matched)
    requires forall k :: 0 <= k < |matched| ==> cues[matched[k]].start.Some?
    requires MatchLines(cues, pending, matched).Ok?
    ensures var a := MatchLines(cues, pending, matched).value;
      && ValidIndices(a.cues, a.matched)
      && (forall k :: 0 <= k < |a.matched| ==> a.cues[a.matched[k]].start.Some?)
    decreases |pending|
  {
    if |pending| > 0 {
      StepNext(cues, pending);
      StepKeeps(cues, pending);
      var rd := Step(cues, pending).value;
      var m1 := matched + [rd.chosen];
      forall k | 0 <= k < |m1|
        ensures m1[k] < |rd.cues| && rd.cues[m1[k]].start.Some?
      {
        if k < |matched| {
          assert m1[k] == matched[k];
        }
      }
      MatchLinesValid(rd.cues, rd.pending, m1);
    }
  }

  /** Every pending line is among the lines of a match made by the loop. */
  lemma {:induction false} MatchLinesCovers(cues: seq<Cue>, pending: seq<string>, matched: seq<nat>)
    requires Anchored(cues, pending)
    requires MatchLines(cues, pending, matched).Ok?
    ensures var a := MatchLines(cues, pending, matched).value;
      forall x :: x in pending ==>
        exists k :: |matched| <= k < |a.matched| && a.matched[k] < |a.cues| && x in a.cues[a.matched[k]].lines
    decreases |pending|
  {
    if |pending| > 0 {
      StepNext(cues, pending);
      StepShrinks(cues, pending);
      var rd := Step(cues, pending).value;
      var m1 := matched + [rd.chosen];
      MatchLinesCount(rd.cues, rd.pending, m1);
      MatchLinesKeeps(rd.cues, rd.pending, m1);
      MatchLinesCovers(rd.cues, rd.pending, m1);
      var a := MatchLines(rd.cues, rd.pending, m1).value;
      assert a.matched[..|m1|] == m1;
      assert a.matched[|matched|] == rd.chosen;
      assert a.cues[rd.chosen].lines == cues[rd.chosen].lines by {
        StepKeeps(cues, pending);
      }
      forall x | x in pending
        ensures exists k :: |matched| <= k < |a.matched| && a.matched[k] < |a.cues| && x in a.cues[a.matched[k]].lines
      {
        if x !in rd.pending {
          assert x in a.cues[a.matched[|matched|]].lines;
        }
      }
    }
  }

  /** A cue the loop never matches is left as it was. */
  lemma {:induction false} MatchLinesUntouched(cues: seq<Cue>, pending: seq<string>, matched: seq<nat>)
    requires Anchored(cues, pending)
    requires MatchLines(cues, pending, matched).Ok?
    ensures var a := MatchLines(cues, pending, matched).value;
      forall i :: 0 <= i < |cues| && (forall k :: |matched| <= k < |a.matched| ==> a.matched[k] != i) ==>
        i < |a.cues| && a.cues[i] == cues[i]
    decreases |pending|
  {
    MatchLinesCount(cues, pending, matched);
    if |pending| > 0 {
      StepNext(cues, pending);
      StepKeeps(cues, pending);
      var rd := Step(cues, pending).value;
      var m1 := matched + [rd.chosen];
      MatchLinesCount(rd.cues, rd.pending, m1);
      MatchLinesUntouched(rd.cues, rd.pending, m1);
      var a := MatchLines(rd.cues, rd.pending, m1).value;
      assert a.matched[|matched|] == rd.chosen;
    }
  }

  /** Rolling captions: a cue holding line `x` followed by one holding `x`
      and then `y` leave one pending entry per line, and the loop merges both
      into a single match, the second cue stamped with the first one's start. */
  lemma RollingCuesMerge(c1: Cue, c2: Cue, x: string, y: string)
    requires x != y && c1.lines == [x] && c2.lines == [x, y] && c1.start.Some?
    ensures && Anchored([c1, c2], [x, y])
      && MatchLines([c1, c2], [x, y], []) == Ok(Aligned([c1, c2.(start := c1.start)], [1]))
  {
    var cues := [c1, c2];
    assert x in cues[1].lines && y !in cues[0].lines;
    assert Anchored(cues, [x, y]) by {
      HoldersComplete(cues, x, 0, 1);
      HoldersComplete(cues, y, 0, 1);
    }
    assert FirstHolder(cues, x, 0);
    StepFails(cues, [x, y], 0);
    StepChosen(cues, [x, y]);
    StepUpdate(cues, [x, y], 0);
    StepPending(cues, [x, y]);
    var rd := Step(cues, [x, y]).value;
    assert rd.chosen == 1;
    assert RemoveEach([x, y], [x, y]) == [] by {
      assert RemoveFirst([x, y], x) == [y];
      assert RemoveFirst([y], y) == [];
      assert [x, y][1..] == [y];
    }
    assert rd == Round([c1, c2.(start := c1.start)], [], 1);
    StepNext(cues, [x, y]);
    assert MatchLines(cues, [x, y], []) == MatchLines(rd.cues, rd.pending, [] + [rd.chosen]);
    assert [] + [rd.chosen] == [1];
  }
}

=== FILE: bulk.dfy ===
/** `create_bulk_import`: the entries of an Elasticsearch bulk request that
    indexes every match as one subtitle fragment. Each match contributes an
    action entry naming the document id, then the document; a final newline
    entry closes the request. Entries are records here, before `json.dumps`. */
module Bulk {
  import opened Wrappers
  import opened Text
  import opened Cues
  import opened Aligner
  import opened Ids
  import opened Pipeline
  import opened Output

  /** The JSON values the documents hold. */
  datatype Value = Null | Int(n: nat) | Str(s: string)

  /** What the video record supplies: its id, the `title` of its metadata and
      the `channel_name` and `channel_id` of its channel. */
  datatype Video = Video(youtubeId: string, title: Value, channelName: Value, channelId: Value)

  /** The document dict after its update for one match. */
  datatype Document = Document(
    youtubeId: string, title: Value, channel: Value, channelId: Value,
    lastRefresh: nat, lang: string, source: string,
    fragmentId: string, start: Value, end: Value, index: Value, line: string)

  datatype Entry = Action(index: string, id: string) | Source(doc: Document) | Closing

  /** The index every fragment goes to. */
  const SubtitleIndex := "ta_subtitle"

  /** `match.get("start")` or `match.get("end")` as a JSON value. */
  function TimeField(t: Option<string>): Value {
    if t.None? then Null else Str(t.value)
  }

  /** `match.get("id")` as a JSON value. */
  function IdField(id: Option<nat>): Value {
    if id.None? then Null else Int(id.value)
  }

  /** `f"{video.youtube_id}-{self.lang}-{match_id}"`. */
  function FragmentId(youtubeId: string, lang: string, id: Option<nat>): string {
    youtubeId + "-" + lang + "-" + IdText(id)
  }

  /** The document for one match; `now` is the refresh time the clock gives. */
  function FragmentDoc(video: Video, lang: string, source: string, now: nat, c: Cue): Document {
    Document(
      video.youtubeId, video.title, video.channelName, video.channelId, now, lang, source,
      FragmentId(video.youtubeId, lang, c.id), TimeField(c.start), TimeField(c.end), IdField(c.id),
      Join(" ", c.lines))
  }

  /** The loop of `create_bulk_import` over the first `|m|` matches. */
  function Fragments(video: Video, lang: string, source: string, now: nat, cues: seq<Cue>, m: seq<nat>): seq<Entry>
    requires ValidIndices(cues, m)
  {
    if |m| == 0 then []
    else
      var c := cues[m[|m| - 1]];
      Fragments(video, lang, source, now, cues, m[..|m| - 1])
        + [Action(SubtitleIndex, FragmentId(video.youtubeId, lang, c.id)), Source(FragmentDoc(video, lang, source, now, c))]
  }

  function BulkEntries(r: Processed, video: Video, lang: string, source: string, now: nat): seq<Entry>
    requires ValidIndices(r.cues, r.matched)
  {
    Fragments(video, lang, source, now, r.cues, r.matched) + [Closing]
  }

  /** Position `k` of the match list becomes entries `2k` and `2k + 1`: an
      action on the subtitle index naming the fragment id, and the document
      carrying that id and the matched cue's times, id and lines. */
  lemma {:induction false} FragmentsAt(video: Video, lang: string, source: string, now: nat, cues: seq<Cue>, m: seq<nat>)
    requires ValidIndices(cues, m)
    ensures var e := Fragments(video, lang, source, now, cues, m);
      && |e| == 2 * |m|
      && forall k :: 0 <= k < |m| ==>
        && e[2 * k] == Action(SubtitleIndex, FragmentId(video.youtubeId, lang, cues[m[k]].id))
        && e[2 * k + 1] == Source(FragmentDoc(video, lang, source, now, cues[m[k]]))
    decreases |m|
  {
    if |m| > 0 {
      var init := m[..|m| - 1];
      var c := cues[m[|m| - 1]];
      var before := Fragments(video, lang, source, now, cues, init);
      var pair := [Action(SubtitleIndex, FragmentId(video.youtubeId, lang, c.id)), Source(FragmentDoc(video, lang, source, now, c))];
      var e := Fragments(video, lang, source, now, cues, m);
      assert e == before + pair;
      FragmentsAt(video, lang, source, now, cues, init);
      forall k | 0 <= k < |m|
        ensures e[2 * k] == Action(SubtitleIndex, FragmentId(video.youtubeId, lang, cues[m[k]].id))
        ensures e[2 * k + 1] == Source(FragmentDoc(video, lang, source, now, cues[m[k]]))
      {
        if k < |init| {
          assert m[k] == init[k];
          assert e[2 * k] == before[2 * k] && e[2 * k + 1] == before[2 * k + 1];
        } else {
          assert e[2 * k] == pair[0] && e[2 * k + 1] == pair[1];
        }
      }
    }
  }

  /** The request has two entries per match and ends with the closing one;
      an action and its document agree on the fragment id. */
  lemma BulkShape(r: Processed, video: Video, lang: string, source: string, now: nat)
    requires ValidIndices(r.cues, r.matched)
    ensures var e := BulkEntries(r, video, lang, source, now);
      && |e| == 2 * |r.matched| + 1
      && e[|e| - 1] == Closing
      && forall k :: 0 <= k < |r.matched| ==>
        && e[2 * k].Action? && e[2 * k].index == SubtitleIndex
        && e[2 * k + 1].Source? && e[2 * k + 1].doc.fragmentId == e[2 * k].id
        && e[2 * k + 1].doc.line == Join(" ", r.cues[r.matched[k]].lines)
        && e[2 * k + 1].doc.index == IdField(r.cues[r.matched[k]].id)
  {
    FragmentsAt(video, lang, source, now, r.cues, r.matched);
  }

  // ---------------------------------------------------------------------------
  // Reading the id back from a fragment id

  /** The run of digits at the end of `s`. */
  function TrailingDigits(s: string): (d: string)
    ensures forall i :: 0 <= i < |d| ==> IsDigit(d[i])
    decreases |s|
  {
    if |s| > 0 && IsDigit(s[|s| - 1]) then TrailingDigits(s[..|s| - 1]) + [s[|s| - 1]] else ""
  }

  /** The subtitle index a fragment id ends with. */
  function FragmentIndex(fragmentId: string): nat {
    DecimalValue(TrailingDigits(fragmentId))
  }

  /** Behind a non-digit, a run of digits is exactly the trailing run. */
  lemma {:induction false} TrailingDigitsAfter(p: string, c: char, d: string)
    requires !IsDigit(c) && forall i :: 0 <= i < |d| ==> IsDigit(d[i])
    ensures TrailingDigits(p + [c] + d) == d
    decreases |d|
  {
    var s := p + [c] + d;
    if |d| == 0 {
      assert s[|s| - 1] == c;
    } else {
      var init := d[..|d| - 1];
      assert s[..|s| - 1] == p + [c] + init;
      TrailingDigitsAfter(p, c, init);
      assert d == init + [d[|d| - 1]];
    }
  }

  /** The index is read back from the fragment id of a numbered cue, whatever
      the video id and language. */
  lemma FragmentIndexRoundTrip(youtubeId: string, lang: string, n: nat)
    ensures FragmentIndex(FragmentId(youtubeId, lang, Some(n))) == n
  {
    var digits := NatToString(n);
    assert FragmentId(youtubeId, lang, Some(n)) == (youtubeId + "-" + lang) + ['-'] + digits;
    TrailingDigitsAfter(youtubeId + "-" + lang, '-', digits);
  }

  /** Fragments of one video and language with different indexes have
      different ids. */
  lemma FragmentIdInjective(youtubeId: string, lang: string, a: nat, b: nat)
    requires FragmentId(youtubeId, lang, Some(a)) == FragmentId(youtubeId, lang, Some(b))
    ensures a == b
  {
    FragmentIndexRoundTrip(youtubeId, lang, a);
    FragmentIndexRoundTrip(youtubeId, lang, b);
  }

  // ---------------------------------------------------------------------------
  // The request for a processed subtitle

  /** When the cue at the last position referring to it carries that
      position plus one as its id, its document's index is that number and
      its fragment id gives the number back; when no cue is matched twice,
      the fragment ids of different positions differ. */
  lemma NumberedFragments(r: Processed, youtubeId: string, lang: string)
    requires ValidIndices(r.cues, r.matched)
    requires forall k: nat :: k < |r.matched| && LastPosition(r.matched, k) ==> r.cues[r.matched[k]].id == Some(k + 1)
    ensures forall k: nat :: k < |r.matched| && LastPosition(r.matched, k) ==>
      && IdField(r.cues[r.matched[k]].id) == Int(k + 1)
      && FragmentIndex(FragmentId(youtubeId, lang, r.cues[r.matched[k]].id)) == k + 1
    ensures Distinct(r.matched) ==> forall a, b :: 0 <= a < b < |r.matched| ==>
      FragmentId(youtubeId, lang, r.cues[r.matched[a]].id) != FragmentId(youtubeId, lang, r.cues[r.matched[b]].id)
  {
    forall k: nat | k < |r.matched| && LastPosition(r.matched, k)
      ensures FragmentIndex(FragmentId(youtubeId, lang, r.cues[r.matched[k]].id)) == k + 1
    {
      FragmentIndexRoundTrip(youtubeId, lang, k + 1);
    }
    if Distinct(r.matched) {
      forall a, b | 0 <= a < b < |r.matched|
        ensures FragmentId(youtubeId, lang, r.cues[r.matched[a]].id) != FragmentId(youtubeId, lang, r.cues[r.matched[b]].id)
      {
        assert LastPosition(r.matched, a) && LastPosition(r.matched, b);
        FragmentIndexRoundTrip(youtubeId, lang, a + 1);
        FragmentIndexRoundTrip(youtubeId, lang, b + 1);
      }
    }
  }

  /** For the result of `process` every document's index and fragment id are
      as `NumberedFragments` describes. */
  lemma RunFragments(p: Parsed, youtubeId: string, lang: string)
    requires Anchored(p.cues, p.pending)
    requires Run(p).Ok?
    ensures var r := Run(p).value;
      forall k: nat :: k < |r.matched| && LastPosition(r.matched, k) ==>
        FragmentIndex(FragmentId(youtubeId, lang, r.cues[r.matched[k]].id)) == k + 1
  {
    RunOrderedAndNumbered(p);
    NumberedFragments(Run(p).value, youtubeId, lang);
  }
}

=== FILE: cues.dfy ===
/** Splitting the raw caption text into a header and cues (`_parse_cues`,
    `_cue_cleaner`), and the pending list of text lines built on the way with
    its four-entry duplicate window. */
module Cues {
  import opened Wrappers
  import opened Text
  import opened Patterns

  /** One cue dict. A key Python never set (`start`/`end` of a block without a
      timing line, `id` before numbering) is `None`. */
  datatype Cue = Cue(start: Option<string>, end: Option<string>, lines: seq<string>, id: Option<nat>)

  /** `{"lines": []}` */
  const EmptyCue: Cue := Cue(None, None, [], None)

  /** `not line.strip()`: the line is empty or all white space. */
  predicate IsBlank(s: string) {
    forall i :: 0 <= i < |s| ==> IsSpace(s[i])
  }

  /** `IsBlank` is exactly "strip leaves nothing". */
  lemma BlankIffStripEmpty(s: string)
    ensures IsBlank(s) <==> |Strip(s)| == 0
  {
  }

  // ---------------------------------------------------------------------------
  // The pending list and its duplicate window

  /** `self.all_text_lines[-4:]`: the last (up to) four pending entries. */
  function Window(p: seq<string>): (w: seq<string>)
    ensures |w| == if |p| < 4 then |p| else 4
    ensures forall i :: 0 <= i < |p| && |p| - 4 <= i ==> p[i] in w
    ensures forall x :: x in w ==> exists i :: 0 <= i < |p| && |p| - 4 <= i && p[i] == x
  {
    if |p| <= 4 then p else p[|p| - 4..]
  }

  /** One text line offered to the pending list. */
  function Admit(pending: seq<string>, clean: string): seq<string> {
    if !IsBlank(clean) && clean !in Window(pending) then pending + [clean] else pending
  }

  /** Any two entries at most four positions apart differ. */
  predicate Spaced(p: seq<string>) {
    forall i, j :: 0 <= i < j < |p| && j - i <= 4 ==> p[i] != p[j]
  }

  predicate NoBlank(p: seq<string>) {
    forall k :: 0 <= k < |p| ==> !IsBlank(p[k])
  }

  /** The lines offered in order. */
  function AdmitAll(pending: seq<string>, lines: seq<string>): (r: seq<string>)
    ensures pending <= r
    decreases |lines|
  {
    if |lines| == 0 then pending else AdmitAll(Admit(pending, lines[0]), lines[1..])
  }

  /** One offer keeps entries more than four positions apart. */
  lemma AdmitSpaced(p: seq<string>, x: string)
    requires Spaced(p)
    ensures Spaced(Admit(p, x))
  {
    var q := Admit(p, x);
    if q != p {
      forall i | 0 <= i < |p| && |p| - i <= 4
        ensures q[i] != q[|p|]
      {
        assert p[i] in Window(p);
      }
    }
  }

  /** The pending list ends up holding exactly the entries it held plus the
      non-blank offered lines (as a set), and keeps equal entries more than four
      positions apart. */
  lemma {:induction false} AdmitAllFacts(p: seq<string>, lines: seq<string>)
    ensures forall x :: x in AdmitAll(p, lines) <==> x in p || (x in lines && !IsBlank(x))
    ensures Spaced(p) ==> Spaced(AdmitAll(p, lines))
    ensures NoBlank(p) ==> NoBlank(AdmitAll(p, lines))
    decreases |lines|
  {
    if |lines| > 0 {
      var q := Admit(p, lines[0]);
      AdmitAllFacts(q, lines[1..]);
      if Spaced(p) {
        AdmitSpaced(p, lines[0]);
      }
      assert forall x :: x in q <==> x in p || (x == lines[0] && !IsBlank(x)) by {
        if !IsBlank(lines[0]) && lines[0] in Window(p) {
          assert lines[0] in p;
        }
      }
      assert forall x :: x in lines <==> x == lines[0] || x in lines[1..] by {
        assert lines == [lines[0]] + lines[1..];
      }
    }
  }

  /** `Dedup`: the pending list built from nothing. */
  function Dedup(lines: seq<string>): seq<string> {
    AdmitAll([], lines)
  }

  /** Offering a line right after it was offered changes nothing. */
  lemma AdmitTwice(p: seq<string>, x: string)
    ensures Admit(Admit(p, x), x) == Admit(p, x)
  {
    var q := Admit(p, x);
    if q != p {
      assert q[|q| - 1] == x;
      assert x in Window(q);
    }
  }

  function Repeat(x: string, n: nat): (r: seq<string>)
    ensures |r| == n && forall k :: 0 <= k < n ==> r[k] == x
  {
    seq(n, _ => x)
  }

  lemma {:induction false} AdmitStable(q: seq<string>, x: string, n: nat)
    requires Admit(q, x) == q
    ensures AdmitAll(q, Repeat(x, n)) == q
    decreases n
  {
    if n > 0 {
      assert Repeat(x, n)[1..] == Repeat(x, n - 1);
      AdmitStable(q, x, n - 1);
    }
  }

  /** A line repeated in any number of consecutive offers enters the pending
      list at most once: the same as offering it once. */
  lemma RepeatedLineAdmittedOnce(p: seq<string>, x: string, n: nat)
    requires n >= 1
    ensures AdmitAll(p, Repeat(x, n)) == Admit(p, x)
  {
    AdmitTwice(p, x);
    assert Repeat(x, n)[1..] == Repeat(x, n - 1);
    AdmitStable(Admit(p, x), x, n - 1);
  }

  /** The window rule: a line is appended exactly when it is not blank and
      differs from each of the last four entries; otherwise nothing changes. */
  lemma AdmitRule(p: seq<string>, x: string)
    ensures Admit(p, x) == p + [x] || Admit(p, x) == p
    ensures Admit(p, x) == p + [x] <==>
      !IsBlank(x) && forall i :: 0 <= i < |p| && |p| - 4 <= i ==> p[i] != x
  {
    if Admit(p, x) == p + [x] {
      assert |Admit(p, x)| != |p|;
    }
  }

  // ---------------------------------------------------------------------------
  // One cue block

  /** The text lines a block keeps: every line that is not a timing line,
      cleaned, in order (blank lines included). */
  function TextLines(lines: seq<string>): seq<string>
    decreases |lines|
  {
    if |lines| == 0 then []
    else (if TimingOf(lines[0]).Some? then [] else [CleanText(lines[0])]) + TextLines(lines[1..])
  }

  /** The timing of a block: that of its last timing line, if any. */
  function LastTiming(lines: seq<string>): Option<Timing>
    decreases |lines|
  {
    if |lines| == 0 then None
    else match LastTiming(lines[1..])
      case Some(t) => Some(t)
      case None => TimingOf(lines[0])
  }

  /** `LastTiming` is the timing of the last line that has one. */
  lemma {:induction false} LastTimingIsLast(lines: seq<string>)
    ensures LastTiming(lines).None? <==> forall i :: 0 <= i < |lines| ==> TimingOf(lines[i]).None?
    ensures LastTiming(lines).Some? ==>
      exists i :: 0 <= i < |lines| && TimingOf(lines[i]) == LastTiming(lines)
        && forall j :: i < j < |lines| ==> TimingOf(lines[j]).None?
    decreases |lines|
  {
    if |lines| > 0 {
      LastTimingIsLast(lines[1..]);
      assert forall i :: 1 <= i < |lines| ==> lines[i] == lines[1..][i - 1];
      if LastTiming(lines[1..]).Some? {
        var i :| 0 <= i < |lines[1..]| && TimingOf(lines[1..][i]) == LastTiming(lines[1..])
          && forall j :: i < j < |lines[1..]| ==> TimingOf(lines[1..][j]).None?;
        assert TimingOf(lines[i + 1]) == LastTiming(lines);
      }
    }
  }

  /** A block's timing is a pair of stamps. */
  lemma LastTimingStamps(lines: seq<string>)
    requires LastTiming(lines).Some?
    ensures IsStamp(LastTiming(lines).value.start) && IsStamp(LastTiming(lines).value.end)
  {
    LastTimingIsLast(lines);
    var i :| 0 <= i < |lines| && TimingOf(lines[i]) == LastTiming(lines);
    TimingStartIsStamp(lines[i]);
    TimingEndIsStamp(lines[i]);
  }

  /** The cue a block yields, whatever the pending list holds. */
  function BlockCue(block: string): Cue {
    var lines := Split(block, "\n");
    match LastTiming(lines)
    case None => Cue(None, None, TextLines(lines), None)
    case Some(t) => Cue(Some(t.start), Some(t.end), TextLines(lines), None)
  }

  /** The loop of `_cue_cleaner` over the lines of one block: a timing line
      (re)sets `start` and `end`, any other line is cleaned, appended to the
      cue's lines and offered to the pending list. */
  function CleanLines(lines: seq<string>, cue: Cue, pending: seq<string>): (Cue, seq<string>)
    decreases |lines|
  {
    if |lines| == 0 then (cue, pending)
    else
      match TimingOf(lines[0])
      case Some(t) =>
        CleanLines(lines[1..], cue.(start := Some(t.start), end := Some(t.end)), pending)
      case None =>
        var clean := CleanText(lines[0]);
        CleanLines(lines[1..], cue.(lines := cue.lines + [clean]), Admit(pending, clean))
  }

  lemma AdmitAllCons(p: seq<string>, x: string, rest: seq<string>)
    ensures AdmitAll(p, [x] + rest) == AdmitAll(Admit(p, x), rest)
  {
    assert ([x] + rest)[1..] == rest;
  }

  /** The loop appends the block's text lines, offers them to the pending list
      in order, and leaves the timing of the block's last timing line. */
  lemma {:induction false} CleanLinesFacts(lines: seq<string>, cue: Cue, pending: seq<string>)
    ensures CleanLines(lines, cue, pending).0.lines == cue.lines + TextLines(lines)
    ensures CleanLines(lines, cue, pending).1 == AdmitAll(pending, TextLines(lines))
    ensures CleanLines(lines, cue, pending).0.id == cue.id
    ensures LastTiming(lines).None? ==>
      CleanLines(lines, cue, pending).0.start == cue.start && CleanLines(lines, cue, pending).0.end == cue.end
    ensures LastTiming(lines).Some? ==>
      && CleanLines(lines, cue, pending).0.start == Some(LastTiming(lines).value.start)
      && CleanLines(lines, cue, pending).0.end == Some(LastTiming(lines).value.end)
    decreases |lines|
  {
    if |lines| > 0 {
      match TimingOf(lines[0])
      case Some(t) =>
        CleanLinesFacts(lines[1..], cue.(start := Some(t.start), end := Some(t.end)), pending);
        assert TextLines(lines) == TextLines(lines[1..]);
      case None =>
        var clean := CleanText(lines[0]);
        CleanLinesFacts(lines[1..], cue.(lines := cue.lines + [clean]), Admit(pending, clean));
        assert TextLines(lines) == [clean] + TextLines(lines[1..]);
        AdmitAllCons(pending, clean, TextLines(lines[1..]));
    }
  }

  /** `_cue_cleaner(block)`: the cue of one block and the pending list after it. */
  function CueCleaner(block: string, pending: seq<string>): (r: (Cue, seq<string>))
    ensures r.0 == BlockCue(block)
    ensures r.1 == AdmitAll(pending, r.0.lines)
  {
    CleanLinesFacts(Split(block, "\n"), EmptyCue, pending);
    CleanLines(Split(block, "\n"), EmptyCue, pending)
  }

  // ---------------------------------------------------------------------------
  // The whole text

  /** Every text line of the cues, cue after cue. */
  function AllLines(cues: seq<Cue>): seq<string>
    decreases |cues|
  {
    if |cues| == 0 then [] else cues[0].lines + AllLines(cues[1..])
  }

  lemma {:induction false} AllLinesMembers(cues: seq<Cue>)
    ensures forall x :: x in AllLines(cues) <==> exists i :: 0 <= i < |cues| && x in cues[i].lines
    decreases |cues|
  {
    if |cues| > 0 {
      AllLinesMembers(cues[1..]);
      assert forall i :: 1 <= i < |cues| ==> cues[i] == cues[1..][i - 1];
      forall x | x in AllLines(cues)
        ensures exists i :: 0 <= i < |cues| && x in cues[i].lines
      {
        if x !in cues[0].lines {
          var i :| 0 <= i < |cues[1..]| && x in cues[1..][i].lines;
          assert x in cues[i + 1].lines;
        }
      }
    }
  }

  /** Offering `a` and then `b` is offering `a + b`. */
  lemma {:induction false} AdmitAllConcat(p: seq<string>, a: seq<string>, b: seq<string>)
    ensures AdmitAll(p, a + b) == AdmitAll(AdmitAll(p, a), b)
    decreases |a|
  {
    if |a| == 0 {
      assert a + b == b;
    } else {
      assert a + b == [a[0]] + (a[1..] + b);
      AdmitAllCons(p, a[0], a[1..] + b);
      AdmitAllConcat(Admit(p, a[0]), a[1..], b);
    }
  }

  /** The cues of the blocks, in order, and the pending list after them. */
  function ParseBlocks(blocks: seq<string>, pending: seq<string>): (r: (seq<Cue>, seq<string>))
    ensures |r.0| == |blocks|
    ensures forall k :: 0 <= k < |blocks| ==> r.0[k] == BlockCue(blocks[k])
    ensures r.1 == AdmitAll(pending, AllLines(r.0))
    decreases |blocks|
  {
    if |blocks| == 0 then ([], pending)
    else
      var (c, p1) := CueCleaner(blocks[0], pending);
      var (cs, p2) := ParseBlocks(blocks[1..], p1);
      var cues := [c] + cs;
      assert cues[1..] == cs;
      AdmitAllConcat(pending, c.lines, AllLines(cs));
      (cues, p2)
  }

  /** Every pending line occurs in the lines of some cue, so the search in
      `_match_text_lines` never comes back empty. */
  predicate Covered(cues: seq<Cue>, pending: seq<string>) {
    forall x :: x in pending ==> exists i :: 0 <= i < |cues| && x in cues[i].lines
  }

  /** `start` and `end` are set together and hold stamps; `id` is not set yet. */
  predicate FreshCue(c: Cue) {
    && c.start.Some? == c.end.Some?
    && (c.start.Some? ==> IsStamp(c.start.value) && IsStamp(c.end.value))
    && c.id.None?
  }

  datatype Parsed = Parsed(header: string, cues: seq<Cue>, pending: seq<string>)

  /** `"\n \n"` is replaced by `"\n"` before splitting into blocks. */
  function Unfolded(text: string): string {
    ReplaceAll(text, "\n \n", "\n")
  }

  /** `_parse_cues`: the header is the first `"\n\n"`-separated block, every
      later block becomes one cue, and the pending list is the duplicate
      window run over all cue lines in order. */
  function ParseCues(text: string): (r: Parsed)
    ensures var blocks := Split(Unfolded(text), "\n\n");
      && r.header == blocks[0]
      && |r.cues| == |blocks| - 1
      && forall k :: 0 <= k < |r.cues| ==> r.cues[k] == BlockCue(blocks[k + 1])
    ensures Free(r.header, "\n\n")
    ensures r.pending == Dedup(AllLines(r.cues))
  {
    var blocks := Split(Unfolded(text), "\n\n");
    var (cues, pending) := ParseBlocks(blocks[1..], []);
    Parsed(blocks[0], cues, pending)
  }

  /** The pending list holds no blank entry, no two equal entries at most
      four positions apart, and only lines some cue holds. */
  lemma PendingFacts(text: string)
    ensures var r := ParseCues(text);
      Spaced(r.pending) && NoBlank(r.pending) && Covered(r.cues, r.pending)
  {
    var r := ParseCues(text);
    AdmitAllFacts([], AllLines(r.cues));
    AllLinesMembers(r.cues);
  }

  /** Every parsed cue has either both stamps or neither, and no id. */
  lemma ParsedCuesFresh(text: string)
    ensures forall k :: 0 <= k < |ParseCues(text).cues| ==> FreshCue(ParseCues(text).cues[k])
  {
    var r := ParseCues(text);
    var blocks := Split(Unfolded(text), "\n\n");
    forall k | 0 <= k < |r.cues|
      ensures FreshCue(r.cues[k])
    {
      var lines := Split(blocks[k + 1], "\n");
      assert r.cues[k] == BlockCue(blocks[k + 1]);
      if LastTiming(lines).Some? {
        LastTimingStamps(lines);
      }
    }
  }

  /** Empty input: empty header, no cues, no pending lines. */
  lemma ParseEmpty()
    ensures ParseCues("") == Parsed("", [], [])
  {
    assert Unfolded("") == "";
    assert Split("", "\n\n") == [""];
  }
}

=== FILE: ids.dfy ===
/** `_add_id`: position `k` of the match list writes `id = k + 1` into the cue
    it refers to. The match list holds references, so a cue matched at several
    positions keeps the id of the last of them. */
module Ids {
  import opened Wrappers
  import opened Cues
  import opened Aligner

  /** The loop of `_add_id` from position `k` on. */
  function AddIds(cues: seq<Cue>, m: seq<nat>, k: nat): seq<Cue>
    requires ValidIndices(cues, m) && k <= |m|
    decreases |m| - k
  {
    if k == |m| then cues
    else AddIds(cues[m[k] := cues[m[k]].(id := Some(k + 1))], m, k + 1)
  }

  /** Numbering changes only ids. */
  lemma {:induction false} AddIdsKeeps(cues: seq<Cue>, m: seq<nat>, k: nat)
    requires ValidIndices(cues, m) && k <= |m|
    ensures var r := AddIds(cues, m, k);
      && |r| == |cues|
      && forall i :: 0 <= i < |cues| ==>
        r[i].start == cues[i].start && r[i].end == cues[i].end && r[i].lines == cues[i].lines
    decreases |m| - k
  {
    if k < |m| {
      AddIdsKeeps(cues[m[k] := cues[m[k]].(id := Some(k + 1))], m, k + 1);
    }
  }

  /** `k` is the last position of the match list that refers to its cue. */
  predicate LastPosition(m: seq<nat>, k: nat) {
    k < |m| && forall j :: k < j < |m| ==> m[j] != m[k]
  }

  /** The cue at the last position referring to it gets that position's id;
      a cue no position from `k` on refers to keeps its id. */
  lemma {:induction false} AddIdsValue(cues: seq<Cue>, m: seq<nat>, k: nat)
    requires ValidIndices(cues, m) && k <= |m|
    ensures var r := AddIds(cues, m, k);
      && |r| == |cues|
      && (forall p :: k <= p < |m| && LastPosition(m, p) ==> r[m[p]].id == Some(p + 1))
      && (forall i :: 0 <= i < |cues| && (forall j :: k <= j < |m| ==> m[j] != i) ==> r[i].id == cues[i].id)
    decreases |m| - k
  {
    if k < |m| {
      var next := cues[m[k] := cues[m[k]].(id := Some(k + 1))];
      AddIdsValue(next, m, k + 1);
      var r := AddIds(cues, m, k);
      forall p | k <= p < |m| && LastPosition(m, p)
        ensures r[m[p]].id == Some(p + 1)
      {
        if p == k {
          assert forall j :: k + 1 <= j < |m| ==> m[j] != m[k];
        }
      }
    }
  }

  predicate Distinct(m: seq<nat>) {
    forall a, b :: 0 <= a < b < |m| ==> m[a] != m[b]
  }

  /** When no cue is matched twice, position `k` carries id `k + 1`. */
  lemma AddIdsDistinct(cues: seq<Cue>, m: seq<nat>)
    requires ValidIndices(cues, m) && Distinct(m)
    ensures var r := AddIds(cues, m, 0);
      |r| == |cues| && forall k :: 0 <= k < |m| ==> r[m[k]].id == Some(k + 1)
  {
    AddIdsValue(cues, m, 0);
    assert forall k :: 0 <= k < |m| ==> LastPosition(m, k);
  }

  /** A cue matched at positions 0 and 2 around another cue at position 1
      carries id 3 at both of its positions: the ids read in match order are
      3, 2, 3 rather than 1, 2, 3. */
  lemma RepeatedMatchSharesId(cues: seq<Cue>, a: nat, b: nat)
    requires a < |cues| && b < |cues| && a != b
    ensures var r := AddIds(cues, [a, b, a], 0);
      |r| == |cues| && r[a].id == Some(3) && r[b].id == Some(2)
  {
    var m := [a, b, a];
    AddIdsValue(cues, m, 0);
    assert LastPosition(m, 2) && LastPosition(m, 1);
  }
}

=== FILE: languages.dfy ===
/** Choosing which subtitles to fetch: the configured language list
    (`sub_conf_parse`), the folding of country-specific subtitle keys onto
    their language (`_normalize_lang`) and the user-first, auto-caption
    fallback choice (`get_subtitles`). */
module Languages {
  import opened Wrappers
  import opened Text

  // ---------------------------------------------------------------------------
  // sub_conf_parse

  /** The configured languages: `None` when the setting is empty, otherwise
      every comma-separated entry with surrounding white space removed. */
  function ParseLanguages(raw: string): (r: Option<seq<string>>)
    ensures r.None? <==> |raw| == 0
    ensures r.Some? ==> |r.value| == |Split(raw, ",")|
    ensures r.Some? ==> forall k :: 0 <= k < |r.value| ==> r.value[k] == Strip(Split(raw, ",")[k])
  {
    if |raw| == 0 then None
    else
      var parts := Split(raw, ",");
      Some(seq(|parts|, k requires 0 <= k < |parts| => Strip(parts[k])))
  }

  /** `s` neither starts nor ends with white space. */
  predicate Trimmed(s: string) {
    |s| > 0 ==> !IsSpace(s[0]) && !IsSpace(s[|s| - 1])
  }

  /** `strip` leaves trimmed text alone. */
  lemma StripTrimmed(s: string)
    requires Trimmed(s)
    ensures Strip(s) == s
  {
    var t := TrimStart(s);
    if |s| > 0 {
      assert |t| == |s|;
      var u := TrimEnd(t);
      assert |u| == |t|;
    }
  }

  /** Every configured language is trimmed, and when no
      entry carried surrounding white space, joining the languages with commas
      gives back the setting. */
  lemma {:induction false} ParseLanguagesRoundTrip(raw: string)
    requires |raw| > 0
    ensures var langs := ParseLanguages(raw).value;
      && (forall k :: 0 <= k < |langs| ==> Trimmed(langs[k]))
      && ((forall k :: 0 <= k < |Split(raw, ",")| ==> Trimmed(Split(raw, ",")[k])) ==> Join(",", langs) == raw)
  {
    var parts := Split(raw, ",");
    var langs := ParseLanguages(raw).value;
    StrippedTrimmed(parts, langs);
    if forall k :: 0 <= k < |parts| ==> Trimmed(parts[k]) {
      StripAllTrimmed(parts, langs);
      assert Join(",", parts) == raw;
    }
  }

  /** Stripped entries are trimmed. */
  lemma StrippedTrimmed(parts: seq<string>, langs: seq<string>)
    requires |langs| == |parts| && forall k :: 0 <= k < |parts| ==> langs[k] == Strip(parts[k])
    ensures forall k :: 0 <= k < |langs| ==> Trimmed(langs[k])
  {
  }

  /** Stripping trimmed entries changes none of them. */
  lemma StripAllTrimmed(parts: seq<string>, langs: seq<string>)
    requires |langs| == |parts| && forall k :: 0 <= k < |parts| ==> langs[k] == Strip(parts[k])
    requires forall k :: 0 <= k < |parts| ==> Trimmed(parts[k])
    ensures langs == parts
  {
    forall k | 0 <= k < |parts|
      ensures langs[k] == parts[k]
    {
      StripTrimmed(parts[k]);
    }
  }

  // ---------------------------------------------------------------------------
  // _normalize_lang

  const LiveChat := "live_chat"

  /** `key.split("-")[0]`. */
  function Prefix(key: string): (p: string)
    ensures Free(p, "-")
  {
    Split(key, "-")[0]
  }

  /** A key without a hyphen is its own prefix; a key that differs from its
      prefix holds a hyphen, so it is nobody's prefix. */
  lemma PrefixOfKey(key: string)
    ensures Free(key, "-") ==> Prefix(key) == key
    ensures Prefix(key) != key ==> !Free(key, "-")
  {
    if Free(key, "-") {
      assert FindFrom(key, "-", 0).None?;
    }
  }

  /** The subtitle dict as its keys in insertion order and the value of each. */
  predicate IsDict<V>(keys: seq<string>, vals: map<string, V>) {
    && (forall a, b :: 0 <= a < b < |keys| ==> keys[a] != keys[b])
    && (forall k :: k in vals ==> k in keys)
    && (forall k :: k in keys ==> k in vals)
  }

  /** One turn of the loop: pop `key` and, unless its language is the live
      chat, store the popped value under the language. */
  function NormalizeStep<V>(state: map<string, V>, key: string): (r: map<string, V>)
    requires key in state
    ensures forall lang :: lang in r <==> (lang in state && lang != key) || (lang == Prefix(key) && lang != LiveChat)
    ensures forall lang :: lang in r ==> r[lang] == if lang == Prefix(key) && lang != LiveChat then state[key] else state[lang]
  {
    var lang := Prefix(key);
    var value := state[key];
    var popped := state - {key};
    if lang == LiveChat then popped else popped[lang := value]
  }

  /** The loop over the keys from position `i` on. */
  function NormalizeFrom<V>(keys: seq<string>, state: map<string, V>, i: nat): map<string, V>
    requires i <= |keys|
    requires forall j :: i <= j < |keys| ==> keys[j] in state
    requires forall a, b :: i <= a < b < |keys| ==> keys[a] != keys[b]
    decreases |keys| - i
  {
    if i == |keys| then state
    else
      var next := NormalizeStep(state, keys[i]);
      assert forall j :: i < j < |keys| ==> keys[j] in next by {
        forall j | i < j < |keys|
          ensures keys[j] in next
        {
          assert keys[j] != keys[i];
          PrefixOfKey(keys[j]);
        }
      }
      NormalizeFrom(keys, next, i + 1)
  }

  /** `_normalize_lang`: `None` for a missing or empty subtitle dict. */
  function NormalizeLang<V>(keys: seq<string>, vals: map<string, V>): (r: Option<map<string, V>>)
    requires IsDict(keys, vals)
    ensures r.None? <==> |keys| == 0
  {
    if |keys| == 0 then None
    else Some(NormalizeFrom(keys, vals, 0))
  }

  /** The last key before position `i` that carries a hyphen and has `lang` as
      its prefix, unless `lang` is the live chat. */
  function Donor(keys: seq<string>, i: nat, lang: string): (d: Option<nat>)
    requires i <= |keys|
    ensures d.Some? ==> d.value < i && keys[d.value] != lang && Prefix(keys[d.value]) == lang && lang != LiveChat
    ensures d.Some? ==> forall j :: d.value < j < i ==> keys[j] == lang || Prefix(keys[j]) != lang
    ensures d.None? ==> lang == LiveChat || forall j :: 0 <= j < i ==> keys[j] == lang || Prefix(keys[j]) != lang
  {
    if i == 0 || lang == LiveChat then None
    else if keys[i - 1] != lang && Prefix(keys[i - 1]) == lang then Some(i - 1)
    else Donor(keys, i - 1, lang)
  }

  /** Some key before position `i` has `lang` as its prefix. */
  predicate Seen(keys: seq<string>, i: nat, lang: string)
    requires i <= |keys|
  {
    i > 0 && (Prefix(keys[i - 1]) == lang || Seen(keys, i - 1, lang))
  }

  lemma {:induction false} SeenExists(keys: seq<string>, i: nat, lang: string)
    requires i <= |keys|
    ensures Seen(keys, i, lang) <==> exists j :: 0 <= j < i && Prefix(keys[j]) == lang
  {
    if i > 0 {
      SeenExists(keys, i - 1, lang);
      if Prefix(keys[i - 1]) == lang {
        assert 0 <= i - 1 < i && Prefix(keys[i - 1]) == lang;
      } else if exists j :: 0 <= j < i && Prefix(keys[j]) == lang {
        var j :| 0 <= j < i && Prefix(keys[j]) == lang;
        assert j < i - 1;
      }
    }
  }

  /** The value `lang` holds after the first `i` turns, if it was in the dict
      from the start or received one: the donor's value, else its own. */
  function Expected<V>(keys: seq<string>, vals: map<string, V>, i: nat, lang: string): Option<V>
    requires IsDict(keys, vals) && i <= |keys|
  {
    match Donor(keys, i, lang)
    case Some(j) => Some(vals[keys[j]])
    case None => if lang in vals then Some(vals[lang]) else None
  }

  /** What holds of the dict after the first `i` turns: a language is a key
      when it is a key still to be visited or, the live chat aside, the prefix
      of a visited key; and every key holds its expected value. */
  ghost predicate Folded<V>(keys: seq<string>, vals: map<string, V>, state: map<string, V>, i: nat)
    requires IsDict(keys, vals) && i <= |keys|
  {
    && (forall lang :: lang in state ==> lang in keys[i..] || (lang != LiveChat && Seen(keys, i, lang)))
    && (forall lang :: lang in keys[i..] ==> lang in state)
    && (forall lang :: lang != LiveChat && Seen(keys, i, lang) ==> lang in state)
    && (forall lang :: lang in state ==> Expected(keys, vals, i, lang) == Some(state[lang]))
  }

  /** A key holding a hyphen is nobody's prefix. */
  lemma HyphenatedNoPrefix(key: string, other: string)
    requires Prefix(key) != key
    ensures Prefix(other) != key
  {
    PrefixOfKey(key);
  }

  /** A hyphenated key is nobody's prefix, so no key donates to it. */
  lemma {:induction false} HyphenatedNoDonor(keys: seq<string>, i: nat, key: string)
    requires i <= |keys| && Prefix(key) != key
    ensures Donor(keys, i, key).None?
  {
    if i > 0 && key != LiveChat {
      HyphenatedNoPrefix(key, keys[i - 1]);
      HyphenatedNoDonor(keys, i - 1, key);
    }
  }

  /** A hyphenated key was seen as nobody's prefix. */
  lemma {:induction false} NotSeenHyphenated(keys: seq<string>, i: nat, key: string)
    requires i <= |keys| && Prefix(key) != key
    ensures !Seen(keys, i, key)
  {
    if i > 0 {
      HyphenatedNoPrefix(key, keys[i - 1]);
      NotSeenHyphenated(keys, i - 1, key);
    }
  }

  /** The live chat marker holds no hyphen. */
  lemma LiveChatBare()
    ensures Prefix(LiveChat) == LiveChat
  {
    HyphenFree(LiveChat);
    PrefixOfKey(LiveChat);
  }

  /** Text without a hyphen character is free of the hyphen separator. */
  lemma HyphenFree(s: string)
    requires forall i :: 0 <= i < |s| ==> s[i] != '-'
    ensures Free(s, "-")
  {
    forall j: nat | j <= |s|
      ensures !OccursAt(s, "-", j)
    {
      if j < |s| {
        assert s[j..j + 1][0] == s[j];
      }
    }
  }

  /** The prefix of a key is the part before its first hyphen. */
  lemma PrefixOfHyphenated(lang: string, rest: string)
    requires Free(lang, "-")
    ensures Prefix(lang + "-" + rest) == lang
  {
    var key := lang + "-" + rest;
    assert OccursAt(key, "-", |lang|) by {
      assert key[|lang|..|lang| + 1] == "-";
    }
    forall j: nat | j < |lang|
      ensures !OccursAt(key, "-", j)
    {
      assert key[j..j + 1] == lang[j..j + 1];
      assert !OccursAt(lang, "-", j);
    }
    var found := FindFrom(key, "-", 0);
    assert found == Some(|lang|);
    assert key[..|lang|] == lang;
  }

  /** What one turn does to the keys still to visit and to the seen prefixes. */
  lemma StepIndexFacts(keys: seq<string>, i: nat)
    requires i < |keys|
    requires forall a, b :: 0 <= a < b < |keys| ==> keys[a] != keys[b]
    ensures keys[i] in keys[i..] && keys[i] !in keys[i + 1..]
    ensures forall lang :: lang != keys[i] ==> (lang in keys[i..] <==> lang in keys[i + 1..])
    ensures forall lang :: Seen(keys, i + 1, lang) <==> Prefix(keys[i]) == lang || Seen(keys, i, lang)
  {
    assert keys[i..] == [keys[i]] + keys[i + 1..];
    assert keys[i] !in keys[i + 1..] by {
      forall j | i + 1 <= j < |keys|
        ensures keys[j] != keys[i]
      {
      }
    }
  }

  /** The donor after one more turn. */
  lemma DonorStep(keys: seq<string>, i: nat, lang: string)
    requires i < |keys|
    ensures Donor(keys, i + 1, lang) ==
      if lang != LiveChat && keys[i] != lang && Prefix(keys[i]) == lang then Some(i) else Donor(keys, i, lang)
  {
  }

  /** The invariant holds before the first turn. */
  lemma FoldedStart<V>(keys: seq<string>, vals: map<string, V>)
    requires IsDict(keys, vals)
    ensures Folded(keys, vals, vals, 0)
  {
    assert keys[0..] == keys;
  }

  /** After one turn every key is still to be visited or a seen prefix. */
  lemma StepDomainSound<V>(keys: seq<string>, vals: map<string, V>, state: map<string, V>, i: nat)
    requires IsDict(keys, vals) && i < |keys|
    requires Folded(keys, vals, state, i)
    ensures keys[i] in state
    ensures var next := NormalizeStep(state, keys[i]);
      forall lang :: lang in next ==> lang in keys[i + 1..] || (lang != LiveChat && Seen(keys, i + 1, lang))
  {
    StepIndexFacts(keys, i);
    var next := NormalizeStep(state, keys[i]);
    forall lang | lang in next
      ensures lang in keys[i + 1..] || (lang != LiveChat && Seen(keys, i + 1, lang))
    {
      if lang == keys[i] {
        assert lang == Prefix(keys[i]) && lang != LiveChat;
      }
    }
  }

  /** After one turn every key still to be visited is present. */
  lemma StepDomainAhead<V>(keys: seq<string>, vals: map<string, V>, state: map<string, V>, i: nat)
    requires IsDict(keys, vals) && i < |keys|
    requires Folded(keys, vals, state, i)
    ensures keys[i] in state
    ensures var next := NormalizeStep(state, keys[i]);
      forall lang :: lang in keys[i + 1..] ==> lang in next
  {
    StepIndexFacts(keys, i);
  }

  /** After one turn every seen prefix other than the live chat is present. */
  lemma StepDomainSeen<V>(keys: seq<string>, vals: map<string, V>, state: map<string, V>, i: nat)
    requires IsDict(keys, vals) && i < |keys|
    requires Folded(keys, vals, state, i)
    ensures keys[i] in state
    ensures var next := NormalizeStep(state, keys[i]);
      forall lang :: lang != LiveChat && Seen(keys, i + 1, lang) ==> lang in next
  {
    var key := keys[i];
    StepIndexFacts(keys, i);
    var next := NormalizeStep(state, key);
    forall lang | lang != LiveChat && Seen(keys, i + 1, lang)
      ensures lang in next
    {
      if lang != Prefix(key) {
        assert Seen(keys, i, lang);
        if lang == key {
          NotSeenHyphenated(keys, i, key);
        }
      }
    }
  }

  /** One turn keeps the part of the invariant about values. */
  lemma StepValues<V>(keys: seq<string>, vals: map<string, V>, state: map<string, V>, i: nat)
    requires IsDict(keys, vals) && i < |keys|
    requires Folded(keys, vals, state, i)
    ensures keys[i] in state
    ensures var next := NormalizeStep(state, keys[i]);
      forall lang :: lang in next ==> Expected(keys, vals, i + 1, lang) == Some(next[lang])
  {
    var key := keys[i];
    StepIndexFacts(keys, i);
    var next := NormalizeStep(state, key);
    var p := Prefix(key);
    forall lang | lang in next
      ensures Expected(keys, vals, i + 1, lang) == Some(next[lang])
    {
      DonorStep(keys, i, lang);
      if lang == p && p != key && p != LiveChat {
        HyphenatedNoDonor(keys, i, key);
        assert next[lang] == state[key] == vals[key];
      } else {
        assert Donor(keys, i + 1, lang) == Donor(keys, i, lang);
        assert next[lang] == state[lang];
      }
    }
  }

  /** The loop from position `i` on ends in a dict where the invariant holds
      at the end of the keys. */
  lemma {:induction false} NormalizeFromFolded<V>(keys: seq<string>, vals: map<string, V>, state: map<string, V>, i: nat)
    requires IsDict(keys, vals) && i <= |keys|
    requires Folded(keys, vals, state, i)
    ensures forall j :: i <= j < |keys| ==> keys[j] in state
    ensures Folded(keys, vals, NormalizeFrom(keys, state, i), |keys|)
    decreases |keys| - i
  {
    assert forall j :: i <= j < |keys| ==> keys[j] in keys[i..];
    if i < |keys| {
      StepDomainSound(keys, vals, state, i);
      StepDomainAhead(keys, vals, state, i);
      StepDomainSeen(keys, vals, state, i);
      StepValues(keys, vals, state, i);
      var next := NormalizeStep(state, keys[i]);
      NormalizeFromFolded(keys, vals, next, i + 1);
    }
  }

  /** The dict `_normalize_lang` returns for a non-empty dict. */
  lemma {:induction false} NormalizeFolded<V>(keys: seq<string>, vals: map<string, V>)
    requires IsDict(keys, vals) && |keys| > 0
    ensures Folded(keys, vals, NormalizeLang(keys, vals).value, |keys|)
  {
    FoldedStart(keys, vals);
    NormalizeFromFolded(keys, vals, vals, 0);
  }

  /** Where the invariant holds at the end, the languages present are the
      prefixes of the keys, the live chat aside. */
  lemma FoldedKeys<V>(keys: seq<string>, vals: map<string, V>, r: map<string, V>)
    requires IsDict(keys, vals)
    requires Folded(keys, vals, r, |keys|)
    ensures forall lang :: lang in r <==> lang != LiveChat && exists j :: 0 <= j < |keys| && Prefix(keys[j]) == lang
  {
    assert keys[|keys|..] == [];
    forall lang
      ensures lang in r <==> lang != LiveChat && exists j :: 0 <= j < |keys| && Prefix(keys[j]) == lang
    {
      SeenExists(keys, |keys|, lang);
    }
  }

  /** Where the invariant holds at the end, a language takes its donor's value
      or keeps its own. */
  lemma FoldedValues<V>(keys: seq<string>, vals: map<string, V>, r: map<string, V>)
    requires IsDict(keys, vals)
    requires Folded(keys, vals, r, |keys|)
    ensures forall lang :: lang in r && Donor(keys, |keys|, lang).Some? ==> r[lang] == vals[keys[Donor(keys, |keys|, lang).value]]
    ensures forall lang :: lang in r && Donor(keys, |keys|, lang).None? ==> lang in vals && r[lang] == vals[lang]
  {
    forall lang | lang in r
      ensures Donor(keys, |keys|, lang).Some? ==> r[lang] == vals[keys[Donor(keys, |keys|, lang).value]]
      ensures Donor(keys, |keys|, lang).None? ==> lang in vals && r[lang] == vals[lang]
    {
      assert Expected(keys, vals, |keys|, lang) == Some(r[lang]);
    }
  }

  /** `_normalize_lang` answers `None` exactly for an empty dict. Otherwise
      the languages it keeps are the prefixes of the keys, the live chat
      aside; a language that is the prefix of some hyphenated key takes the
      value of the last such key, and any other keeps its own value. */
  lemma NormalizeLangSpec<V>(keys: seq<string>, vals: map<string, V>)
    requires IsDict(keys, vals)
    ensures NormalizeLang(keys, vals).None? <==> |keys| == 0
    ensures |keys| > 0 ==> var r := NormalizeLang(keys, vals).value;
      && (forall lang :: lang in r <==> lang != LiveChat && exists j :: 0 <= j < |keys| && Prefix(keys[j]) == lang)
      && (forall lang :: lang in r && Donor(keys, |keys|, lang).Some? ==> r[lang] == vals[keys[Donor(keys, |keys|, lang).value]])
      && (forall lang :: lang in r && Donor(keys, |keys|, lang).None? ==> lang in vals && r[lang] == vals[lang])
  {
    if |keys| > 0 {
      NormalizeFolded(keys, vals);
      FoldedKeys(keys, vals, NormalizeLang(keys, vals).value);
      FoldedValues(keys, vals, NormalizeLang(keys, vals).value);
    }
  }

  /** Keys that are bare languages other than the live chat. */
  predicate AllBare(keys: seq<string>) {
    forall k :: 0 <= k < |keys| ==> Prefix(keys[k]) == keys[k] && keys[k] != LiveChat
  }

  /** Over bare keys no language has a donor, so a dict shaped as
      `NormalizeLangSpec` describes is the original dict. */
  lemma SettledSame<V>(keys: seq<string>, vals: map<string, V>, r: map<string, V>)
    requires IsDict(keys, vals) && AllBare(keys)
    requires forall lang :: lang in r <==> lang != LiveChat && exists j :: 0 <= j < |keys| && Prefix(keys[j]) == lang
    requires forall lang :: lang in r && Donor(keys, |keys|, lang).None? ==> lang in vals && r[lang] == vals[lang]
    ensures r == vals
  {
    SettledKeys(keys, vals, r);
    forall lang | lang in r
      ensures r[lang] == vals[lang]
    {
      assert Donor(keys, |keys|, lang).None?;
    }
    assert r.Keys == vals.Keys;
  }

  /** Over bare keys the languages are the keys themselves. */
  lemma SettledKeys<V>(keys: seq<string>, vals: map<string, V>, r: map<string, V>)
    requires IsDict(keys, vals) && AllBare(keys)
    requires forall lang :: lang in r <==> lang != LiveChat && exists j :: 0 <= j < |keys| && Prefix(keys[j]) == lang
    ensures forall lang :: lang in r <==> lang in vals
  {
    forall lang
      ensures lang in r <==> lang in vals
    {
      if lang in vals {
        assert lang in keys;
        var j :| 0 <= j < |keys| && keys[j] == lang;
        assert Prefix(keys[j]) == lang;
      }
      if lang in r {
        var j :| 0 <= j < |keys| && Prefix(keys[j]) == lang;
        assert keys[j] in keys;
      }
    }
  }

  /** A dict whose keys are all bare languages other than the live chat is
      left as it is. */
  lemma NormalizeSettled<V>(keys: seq<string>, vals: map<string, V>)
    requires IsDict(keys, vals) && |keys| > 0 && AllBare(keys)
    ensures NormalizeLang(keys, vals) == Some(vals)
  {
    NormalizeLangSpec(keys, vals);
    SettledSame(keys, vals, NormalizeLang(keys, vals).value);
  }

  /** `get_user_subtitles` normalizes the same dict once per configured
      language; from the second time on nothing changes, except that a dict
      emptied by the first pass now reads as missing. `keys` lists the
      normalized dict in any order. */
  lemma NormalizeLangIdempotent<V>(keys: seq<string>, vals: map<string, V>, again: seq<string>)
    requires IsDict(keys, vals) && |keys| > 0
    requires IsDict(again, NormalizeLang(keys, vals).value)
    ensures NormalizeLang(again, NormalizeLang(keys, vals).value) ==
      if |again| == 0 then None else NormalizeLang(keys, vals)
  {
    var r := NormalizeLang(keys, vals).value;
    NormalizeLangSpec(keys, vals);
    if |again| > 0 {
      forall k | 0 <= k < |again|
        ensures Prefix(again[k]) == again[k] && again[k] != LiveChat
      {
        assert again[k] in r;
        var j :| 0 <= j < |keys| && Prefix(keys[j]) == again[k];
        PrefixOfKey(again[k]);
      }
      NormalizeSettled(again, r);
    }
  }

  /** A country-specific key wins over its bare language even when the bare
      key comes later: `{lang-country: a, lang: b}` becomes `{lang: a}`. */
  lemma NormalizeCountryWins<V>(lang: string, country: string, a: V, b: V)
    requires Free(lang, "-") && lang != LiveChat
    ensures var key := lang + "-" + country;
      NormalizeLang([key, lang], map[key := a, lang := b]) == Some(map[lang := a])
  {
    var key := lang + "-" + country;
    var keys := [key, lang];
    assert |key| > |lang|;
    CountryKeyMoves(lang, country, a, b);
    BareKeyStays(lang, a);
    assert NormalizeFrom(keys, map[key := a, lang := b], 0) == NormalizeFrom(keys, map[lang := a], 1);
    assert NormalizeFrom(keys, map[lang := a], 1) == NormalizeFrom(keys, map[lang := a], 2);
  }

  /** `{"en-US": a, "en": b}` becomes `{"en": a}`. */
  lemma EnglishCountryWins<V>(a: V, b: V)
    ensures NormalizeLang(["en-US", "en"], map["en-US" := a, "en" := b]) == Some(map["en" := a])
  {
    HyphenFree("en");
    assert "en" + "-" + "US" == "en-US";
    NormalizeCountryWins("en", "US", a, b);
  }

  /** The country key is moved onto its bare language, replacing that entry. */
  lemma CountryKeyMoves<V>(lang: string, country: string, a: V, b: V)
    requires Free(lang, "-") && lang != LiveChat
    ensures NormalizeStep(map[lang + "-" + country := a, lang := b], lang + "-" + country) == map[lang := a]
  {
    var key := lang + "-" + country;
    PrefixOfHyphenated(lang, country);
    assert |key| > |lang|;
    var r := NormalizeStep(map[key := a, lang := b], key);
    assert r.Keys == {lang};
  }

  /** A bare language is stored back under itself. */
  lemma BareKeyStays<V>(lang: string, a: V)
    requires Free(lang, "-") && lang != LiveChat
    ensures NormalizeStep(map[lang := a], lang) == map[lang := a]
  {
    PrefixOfKey(lang);
    var r := NormalizeStep(map[lang := a], lang);
    assert r.Keys == {lang};
  }

  // ---------------------------------------------------------------------------
  // get_subtitles

  /** The subtitle chosen for one configured language: the one the channel
      uploaded, else, when the source setting is `"auto"`, the automatic
      caption. `user` and `auto` stand for `get_user_subtitles` and
      `get_auto_caption`. */
  function Pick<S>(user: string -> Option<S>, auto: string -> Option<S>, source: string, lang: string): (r: Option<S>)
    ensures user(lang).Some? ==> r == user(lang)
    ensures user(lang).None? && source != "auto" ==> r.None?
    ensures user(lang).None? && source == "auto" ==> r == auto(lang)
  {
    if user(lang).Some? then user(lang)
    else if source == "auto" then auto(lang)
    else None
  }

  /** The loop of `get_subtitles` over the configured languages. */
  function Select<S>(langs: seq<string>, user: string -> Option<S>, auto: string -> Option<S>, source: string): (r: seq<S>)
    ensures |r| <= |langs|
    decreases |langs|
  {
    if |langs| == 0 then []
    else
      var before := Select(langs[..|langs| - 1], user, auto, source);
      match Pick(user, auto, source, langs[|langs| - 1])
      case None => before
      case Some(sub) => before + [sub]
  }

  /** The positions of the configured languages that have a subtitle. */
  function Chosen<S>(langs: seq<string>, user: string -> Option<S>, auto: string -> Option<S>, source: string): seq<nat>
    decreases |langs|
  {
    if |langs| == 0 then []
    else
      var before := Chosen(langs[..|langs| - 1], user, auto, source);
      if Pick(user, auto, source, langs[|langs| - 1]).Some? then before + [|langs| - 1] else before
  }

  /** The result holds, in configuration order, the subtitle of exactly the
      languages that have one. */
  lemma {:induction false} SelectChosen<S>(langs: seq<string>, user: string -> Option<S>, auto: string -> Option<S>, source: string)
    ensures var r := Select(langs, user, auto, source);
      var c := Chosen(langs, user, auto, source);
      && |c| == |r|
      && (forall k :: 0 <= k < |c| ==> c[k] < |langs| && Pick(user, auto, source, langs[c[k]]) == Some(r[k]))
      && (forall a, b :: 0 <= a < b < |c| ==> c[a] < c[b])
      && (forall j :: 0 <= j < |langs| && Pick(user, auto, source, langs[j]).Some? ==> j in c)
  {
    ChosenPositions(langs, user, auto, source);
    SelectAlongChosen(langs, user, auto, source);
  }

  /** The chosen positions are increasing and are exactly those whose language
      has a subtitle. */
  lemma {:induction false} ChosenPositions<S>(langs: seq<string>, user: string -> Option<S>, auto: string -> Option<S>, source: string)
    ensures forall k :: 0 <= k < |Chosen(langs, user, auto, source)| ==>
      && Chosen(langs, user, auto, source)[k] < |langs|
      && Pick(user, auto, source, langs[Chosen(langs, user, auto, source)[k]]).Some?
    ensures forall a, b :: 0 <= a < b < |Chosen(langs, user, auto, source)| ==>
      Chosen(langs, user, auto, source)[a] < Chosen(langs, user, auto, source)[b]
    ensures forall j :: 0 <= j < |langs| && Pick(user, auto, source, langs[j]).Some? ==>
      j in Chosen(langs, user, auto, source)
    decreases |langs|
  {
    if |langs| > 0 {
      var init := langs[..|langs| - 1];
      ChosenPositions(init, user, auto, source);
      var c := Chosen(langs, user, auto, source);
      var c0 := Chosen(init, user, auto, source);
      forall k | 0 <= k < |c0|
        ensures c0[k] < |init| && langs[c0[k]] == init[c0[k]]
      {
      }
      forall j | 0 <= j < |langs| && Pick(user, auto, source, langs[j]).Some?
        ensures j in c
      {
        if j < |init| {
          assert init[j] == langs[j];
          assert j in c0;
        }
      }
    }
  }

  /** The `k`-th subtitle of the result is the one of the `k`-th chosen
      position. */
  lemma {:induction false} SelectAlongChosen<S>(langs: seq<string>, user: string -> Option<S>, auto: string -> Option<S>, source: string)
    ensures var r := Select(langs, user, auto, source);
      var c := Chosen(langs, user, auto, source);
      && |c| == |r|
      && (forall k :: 0 <= k < |c| ==> c[k] < |langs| && Pick(user, auto, source, langs[c[k]]) == Some(r[k]))
    decreases |langs|
  {
    if |langs| > 0 {
      var init := langs[..|langs| - 1];
      SelectAlongChosen(init, user, auto, source);
      var c0 := Chosen(init, user, auto, source);
      forall k | 0 <= k < |c0|
        ensures c0[k] < |init| && langs[c0[k]] == init[c0[k]]
      {
      }
    }
  }

  /** Unless the source setting is `"auto"`, every chosen subtitle is one the
      channel uploaded. */
  lemma {:induction false} SelectUserOnly<S>(langs: seq<string>, user: string -> Option<S>, auto: string -> Option<S>, source: string)
    requires source != "auto"
    ensures var r := Select(langs, user, auto, source);
      forall k :: 0 <= k < |r| ==> exists j :: 0 <= j < |langs| && user(langs[j]) == Some(r[k])
  {
    SelectChosen(langs, user, auto, source);
    var r := Select(langs, user, auto, source);
    var c := Chosen(langs, user, auto, source);
    forall k | 0 <= k < |r|
      ensures exists j :: 0 <= j < |langs| && user(langs[j]) == Some(r[k])
    {
      assert user(langs[c[k]]) == Some(r[k]);
    }
  }

  /** With the source setting `"auto"`, a language the channel uploaded no
      subtitle for contributes its automatic caption, at its place among the
      chosen positions; without an automatic caption it contributes nothing. */
  lemma {:induction false} SelectAutoFallback<S>(langs: seq<string>, user: string -> Option<S>, auto: string -> Option<S>, source: string, j: nat)
    requires source == "auto" && j < |langs| && user(langs[j]).None?
    ensures var r := Select(langs, user, auto, source);
      var c := Chosen(langs, user, auto, source);
      && (auto(langs[j]).Some? ==> exists k :: 0 <= k < |c| && k < |r| && c[k] == j && r[k] == auto(langs[j]).value)
      && (auto(langs[j]).None? ==> j !in c)
  {
    SelectChosen(langs, user, auto, source);
    var c := Chosen(langs, user, auto, source);
    if auto(langs[j]).Some? {
      var k :| 0 <= k < |c| && c[k] == j;
    }
  }

  /** When the channel uploaded a subtitle for every configured language, the
      result is those subtitles, one per language, in order. */
  lemma {:induction false} SelectAllUser<S>(langs: seq<string>, user: string -> Option<S>, auto: string -> Option<S>, source: string)
    requires forall k :: 0 <= k < |langs| ==> user(langs[k]).Some?
    ensures var r := Select(langs, user, auto, source);
      |r| == |langs| && forall k :: 0 <= k < |langs| ==> Some(r[k]) == user(langs[k])
    decreases |langs|
  {
    if |langs| > 0 {
      var init := langs[..|langs| - 1];
      SelectAllUser(init, user, auto, source);
      var r0 := Select(init, user, auto, source);
      forall k | 0 <= k < |init|
        ensures Some(r0[k]) == user(langs[k])
      {
        assert init[k] == langs[k];
      }
    }
  }

  /** `get_subtitles`: nothing to fetch when no language is configured,
      otherwise the chosen subtitles. */
  function GetSubtitles<S>(raw: string, user: string -> Option<S>, auto: string -> Option<S>, source: string): (r: Option<seq<S>>)
    ensures r.None? <==> |raw| == 0
    ensures r.Some? ==> |r.value| <= |Split(raw, ",")|
  {
    match ParseLanguages(raw)
    case None => None
    case Some(langs) => Some(Select(langs, user, auto, source))
  }
}

=== FILE: output.dfy ===
/** `get_subtitle_str`: the processed subtitle text. The header comes first,
    then, for every match in order, the cue's id, its timing line and its
    lines, each cue followed by a blank line. */
module Output {
  import opened Wrappers
  import opened Text
  import opened Cues
  import opened Aligner
  import opened Pipeline

  /** An f-string of `cue.get('id')`. */
  function IdText(id: Option<nat>): string {
    if id.None? then "None" else NatToString(id.value)
  }

  /** An f-string of `cue.get('start')` or `cue.get('end')`. */
  function Shown(t: Option<string>): string {
    if t.None? then "None" else t.value
  }

  function TimestampText(c: Cue): string {
    Shown(c.start) + " --> " + Shown(c.end)
  }

  /** One cue's text without the blank line that follows it. */
  function CueBody(c: Cue): string {
    IdText(c.id) + "\n" + TimestampText(c) + "\n" + Join("\n", c.lines)
  }

  /** The loop of `get_subtitle_str` over the first `|m|` matches. */
  function Stitch(cues: seq<Cue>, m: seq<nat>): string
    requires ValidIndices(cues, m)
  {
    if |m| == 0 then ""
    else Stitch(cues, m[..|m| - 1]) + CueBody(cues[m[|m| - 1]]) + "\n\n"
  }

  /** The header and the matched cues' bodies, joined by blank lines and
      closed by one. */
  function SubtitleText(r: Processed): (s: string)
    requires ValidIndices(r.cues, r.matched)
    ensures s == Join("\n\n", [r.header] + Bodies(r.cues, r.matched)) + "\n\n"
  {
    StitchJoin(r.header, r.cues, r.matched);
    r.header + "\n\n" + Stitch(r.cues, r.matched)
  }

  /** The bodies of the matched cues, in match order. */
  function Bodies(cues: seq<Cue>, m: seq<nat>): (b: seq<string>)
    requires ValidIndices(cues, m)
    ensures |b| == |m| && forall k :: 0 <= k < |m| ==> b[k] == CueBody(cues[m[k]])
  {
    seq(|m|, k requires 0 <= k < |m| => CueBody(cues[m[k]]))
  }

  // ---------------------------------------------------------------------------
  // The text as blocks separated by blank lines

  /** The text is the header and the cue bodies joined by blank lines, with a
      final blank line. */
  lemma {:induction false} StitchJoin(header: string, cues: seq<Cue>, m: seq<nat>)
    requires ValidIndices(cues, m)
    ensures header + "\n\n" + Stitch(cues, m) == Join("\n\n", [header] + Bodies(cues, m)) + "\n\n"
    decreases |m|
  {
    if |m| > 0 {
      var init := m[..|m| - 1];
      var body := CueBody(cues[m[|m| - 1]]);
      var before := [header] + Bodies(cues, init);
      StitchJoin(header, cues, init);
      BodiesSnoc(header, cues, m);
      JoinSnoc("\n\n", before, body);
      assert Stitch(cues, m) == Stitch(cues, init) + body + "\n\n";
      AppendBlock(header + "\n\n", Stitch(cues, init), Join("\n\n", before), body);
    }
  }

  /** One more block after text ending in a blank line. */
  lemma AppendBlock(a: string, s: string, j: string, b: string)
    requires a + s == j + "\n\n"
    ensures a + (s + b + "\n\n") == (j + "\n\n" + b) + "\n\n"
  {
    calc {
      a + (s + b + "\n\n");
      (a + s) + b + "\n\n";
      (j + "\n\n") + b + "\n\n";
    }
  }

  lemma BodiesSnoc(header: string, cues: seq<Cue>, m: seq<nat>)
    requires ValidIndices(cues, m) && |m| > 0
    ensures [header] + Bodies(cues, m) == [header] + Bodies(cues, m[..|m| - 1]) + [CueBody(cues[m[|m| - 1]])]
  {
    var b := Bodies(cues, m);
    var b0 := Bodies(cues, m[..|m| - 1]);
    forall k | 0 <= k < |b0|
      ensures b[k] == b0[k]
    {
      assert m[..|m| - 1][k] == m[k];
    }
    SnocPointwise(b, b0, CueBody(cues[m[|m| - 1]]));
    assert [header] + (b0 + [CueBody(cues[m[|m| - 1]])]) == [header] + b0 + [CueBody(cues[m[|m| - 1]])];
  }

  lemma SnocPointwise(b: seq<string>, b0: seq<string>, last: string)
    requires |b| == |b0| + 1 && b[|b0|] == last
    requires forall k :: 0 <= k < |b0| ==> b[k] == b0[k]
    ensures b == b0 + [last]
  {
  }

  /** No character of `s` is a newline. */
  predicate NewlineFree(s: string) {
    forall i :: 0 <= i < |s| ==> s[i] != '\n'
  }

  /** Every newline of `s` is followed, inside `s`, by another character. */
  predicate LoneNewlines(s: string) {
    forall j :: 0 <= j < |s| && s[j] == '\n' ==> j + 1 < |s| && s[j + 1] != '\n'
  }

  /** Text with lone newlines only cannot let a blank line start inside it,
      even when a blank line follows. */
  lemma LoneNewlinesClean(s: string)
    requires LoneNewlines(s)
    ensures PrefixClean(s, "\n\n")
  {
    var t := s + "\n\n";
    forall j: nat | j < |s|
      ensures !OccursAt(t, "\n\n", j)
    {
      if s[j] == '\n' {
        assert t[j..j + 2][1] == s[j + 1];
      } else {
        assert t[j..j + 2][0] == s[j];
      }
    }
  }

  /** Non-empty pieces without newlines, joined by newlines, have lone
      newlines only. */
  lemma {:induction false} JoinLone(pieces: seq<string>)
    requires |pieces| >= 1
    requires forall k :: 0 <= k < |pieces| ==> |pieces[k]| > 0 && NewlineFree(pieces[k])
    ensures LoneNewlines(Join("\n", pieces)) && |Join("\n", pieces)| > 0 && Join("\n", pieces)[0] != '\n'
    decreases |pieces|
  {
    if |pieces| > 1 {
      var p := pieces[0];
      var rest := Join("\n", pieces[1..]);
      JoinLone(pieces[1..]);
      var s := Join("\n", pieces);
      assert s == p + "\n" + rest;
      forall j | 0 <= j < |s| && s[j] == '\n'
        ensures j + 1 < |s| && s[j + 1] != '\n'
      {
        if j > |p| {
          assert s[j] == rest[j - |p| - 1];
        }
      }
    }
  }

  /** The body of a cue with non-empty lines and no newline in its times or
      lines has lone newlines only. */
  lemma CueBodyLone(c: Cue)
    requires NewlineFree(Shown(c.start)) && NewlineFree(Shown(c.end))
    requires |c.lines| > 0
    requires forall k :: 0 <= k < |c.lines| ==> |c.lines[k]| > 0 && NewlineFree(c.lines[k])
    ensures LoneNewlines(CueBody(c))
  {
    var pieces := [IdText(c.id), TimestampText(c)] + c.lines;
    assert Join("\n", c.lines) == Join("\n", pieces[2..]);
    assert CueBody(c) == Join("\n", pieces);
    JoinLone(pieces);
  }

  /** Splitting the text at blank lines gives back the header, one body per
      match and a final empty piece, provided no blank line can start inside
      the header or a body. */
  lemma SubtitleTextSplit(r: Processed)
    requires ValidIndices(r.cues, r.matched)
    requires PrefixClean(r.header, "\n\n")
    requires forall k :: 0 <= k < |r.matched| ==> LoneNewlines(CueBody(r.cues[r.matched[k]]))
    ensures Split(SubtitleText(r), "\n\n") == [r.header] + Bodies(r.cues, r.matched) + [""]
  {
    var parts := [r.header] + Bodies(r.cues, r.matched);
    JoinSnoc("\n\n", parts, "");
    assert SubtitleText(r) == Join("\n\n", parts + [""]);
    BlocksClean(r, parts + [""]);
    SplitJoin("\n\n", parts + [""]);
  }

  /** Neither the header nor a clean body lets a blank line start inside it. */
  lemma BlocksClean(r: Processed, blocks: seq<string>)
    requires ValidIndices(r.cues, r.matched)
    requires PrefixClean(r.header, "\n\n")
    requires forall k :: 0 <= k < |r.matched| ==> LoneNewlines(CueBody(r.cues[r.matched[k]]))
    requires blocks == [r.header] + Bodies(r.cues, r.matched) + [""]
    ensures forall k :: 0 <= k < |blocks| - 1 ==> PrefixClean(blocks[k], "\n\n")
  {
    forall k | 0 <= k < |blocks| - 1
      ensures PrefixClean(blocks[k], "\n\n")
    {
      if k > 0 {
        assert blocks[k] == CueBody(r.cues[r.matched[k - 1]]);
        LoneNewlinesClean(blocks[k]);
      }
    }
  }

  /** Splitting a body at newlines gives back the id, the timing line and the
      cue's lines; a cue without lines leaves one empty piece. */
  lemma CueBodySplit(c: Cue)
    requires NewlineFree(TimestampText(c))
    requires forall k :: 0 <= k < |c.lines| ==> NewlineFree(c.lines[k])
    ensures Split(CueBody(c), "\n") == [IdText(c.id), TimestampText(c)] + (if |c.lines| == 0 then [""] else c.lines)
  {
    var tail := if |c.lines| == 0 then [""] else c.lines;
    var pieces := [IdText(c.id), TimestampText(c)] + tail;
    assert Join("\n", tail) == Join("\n", c.lines);
    assert pieces[2..] == tail && pieces[1..][1..] == tail;
    assert CueBody(c) == Join("\n", pieces);
    forall k | 0 <= k < |pieces|
      ensures PrefixClean(pieces[k], "\n") && Free(pieces[k], "\n")
    {
      NewlineFreeClean(pieces[k]);
    }
    SplitJoin("\n", pieces);
  }

  /** Without newlines a piece is free of the newline separator. */
  lemma NewlineFreeClean(s: string)
    requires NewlineFree(s)
    ensures PrefixClean(s, "\n") && Free(s, "\n")
  {
    forall j: nat | j < |s|
      ensures !OccursAt(s + "\n", "\n", j) && !OccursAt(s, "\n", j)
    {
      assert (s + "\n")[j..j + 1][0] == s[j];
      if j + 1 <= |s| {
        assert s[j..j + 1][0] == s[j];
      }
    }
  }
}

=== FILE: overlaps.dfy ===
/** `_timestamp_check`: walking the match list, a cue whose end lies after the
    start of the cue at the next position has its end pulled back to that
    start. Times are compared as the integers formed by their digits. */
module Overlaps {
  import opened Wrappers
  import opened Text
  import opened Cues
  import opened Aligner

  /** `int(re.sub("[^0-9]", "", t))` on a value read with `dict.get`: a missing
      value makes `re.sub` raise, a value without digits makes `int` raise. */
  function TimeValue(t: Option<string>): Option<nat> {
    if t.None? then None else Numeric(t.value)
  }

  /** A value reads as a time exactly when it is present and holds a digit. */
  lemma TimeValueSome(t: Option<string>)
    ensures TimeValue(t).Some? <==> t.Some? && exists i :: 0 <= i < |t.value| && IsDigit(t.value[i])
  {
    if t.Some? {
      NumericSome(t.value);
    }
  }

  /** The cue at position `p` ends no later than the cue at position `p + 1`
      starts. */
  predicate InOrder(cues: seq<Cue>, m: seq<nat>, p: nat)
    requires ValidIndices(cues, m) && p + 1 < |m|
  {
    && TimeValue(cues[m[p]].end).Some? && TimeValue(cues[m[p + 1]].start).Some?
    && TimeValue(cues[m[p]].end).value <= TimeValue(cues[m[p + 1]].start).value
  }

  /** The body of the loop at position `k` once both times are read: the end
      is pulled back to the next start when it lies after it. */
  function Pull(cues: seq<Cue>, m: seq<nat>, k: nat): (r: seq<Cue>)
    requires ValidIndices(cues, m) && k + 1 < |m|
    requires TimeValue(cues[m[k]].end).Some? && TimeValue(cues[m[k + 1]].start).Some?
    ensures |r| == |cues| && ValidIndices(r, m)
  {
    var cue := cues[m[k]];
    var next := cues[m[k + 1]];
    if TimeValue(cue.end).value > TimeValue(next.start).value then cues[m[k] := cue.(end := next.start)]
    else cues
  }

  /** The loop of `_timestamp_check` from position `k` on. */
  function FixFrom(cues: seq<Cue>, m: seq<nat>, k: nat): Result<seq<Cue>, Fault>
    requires ValidIndices(cues, m) && k <= |m|
    decreases |m| - k
  {
    if k == |m| then Ok(cues)
    else if TimeValue(cues[m[k]].end).None? then Err(NotATime(k))
    else if k + 1 == |m| then Ok(cues)
    else if TimeValue(cues[m[k + 1]].start).None? then Err(NotATime(k + 1))
    else FixFrom(Pull(cues, m, k), m, k + 1)
  }

  /** Every end from position `k` on can be read as a time. */
  predicate EndsReadable(cues: seq<Cue>, m: seq<nat>, k: nat)
    requires ValidIndices(cues, m)
  {
    forall j :: k <= j < |m| ==> TimeValue(cues[m[j]].end).Some?
  }

  /** Every start after position `k` can be read as a time. */
  predicate StartsReadable(cues: seq<Cue>, m: seq<nat>, k: nat)
    requires ValidIndices(cues, m)
  {
    forall j :: k < j < |m| ==> TimeValue(cues[m[j]].start).Some?
  }

  /** One pull changes at most the end of the cue at position `k`, and only to
      the start of the cue at position `k + 1`, which is earlier. */
  lemma PullFacts(cues: seq<Cue>, m: seq<nat>, k: nat)
    requires ValidIndices(cues, m) && k + 1 < |m|
    requires TimeValue(cues[m[k]].end).Some? && TimeValue(cues[m[k + 1]].start).Some?
    ensures var r := Pull(cues, m, k);
      && (forall i :: 0 <= i < |cues| && i != m[k] ==> r[i] == cues[i])
      && r[m[k]].start == cues[m[k]].start && r[m[k]].lines == cues[m[k]].lines && r[m[k]].id == cues[m[k]].id
      && (r[m[k]].end == cues[m[k]].end || r[m[k]].end == cues[m[k + 1]].start)
      && TimeValue(r[m[k]].end).Some?
      && TimeValue(r[m[k]].end).value <= TimeValue(cues[m[k]].end).value
      && TimeValue(r[m[k]].end).value <= TimeValue(r[m[k + 1]].start).value
  {
  }

  /** The check succeeds exactly when every matched end and every matched
      start but the first can be read as a time; an end rewritten on the way
      is always a start that was read before. */
  lemma {:induction false} FixFromOk(cues: seq<Cue>, m: seq<nat>, k: nat)
    requires ValidIndices(cues, m) && k <= |m|
    ensures FixFrom(cues, m, k).Ok? <==> EndsReadable(cues, m, k) && StartsReadable(cues, m, k)
    decreases |m| - k
  {
    if k == |m| {
    } else if TimeValue(cues[m[k]].end).None? {
      assert !EndsReadable(cues, m, k);
    } else if k + 1 == |m| {
    } else if TimeValue(cues[m[k + 1]].start).None? {
      assert !StartsReadable(cues, m, k);
    } else {
      var fixed := Pull(cues, m, k);
      PullTimes(cues, m, k);
      FixFromOk(fixed, m, k + 1);
      assert FixFrom(cues, m, k) == FixFrom(fixed, m, k + 1);
      assert StartsReadable(fixed, m, k + 1) == StartsReadable(cues, m, k + 1);
      assert EndsReadable(fixed, m, k + 1) == EndsReadable(cues, m, k + 1);
      assert StartsReadable(cues, m, k) == StartsReadable(cues, m, k + 1);
      assert EndsReadable(cues, m, k) == EndsReadable(cues, m, k + 1);
    }
  }

  /** Behind position `k` a pull keeps every start, and every end it keeps
      readable or unreadable as it was. */
  lemma PullTimes(cues: seq<Cue>, m: seq<nat>, k: nat)
    requires ValidIndices(cues, m) && k + 1 < |m|
    requires TimeValue(cues[m[k]].end).Some? && TimeValue(cues[m[k + 1]].start).Some?
    ensures forall j :: k < j < |m| ==> Pull(cues, m, k)[m[j]].start == cues[m[j]].start
    ensures forall j :: k < j < |m| ==>
      (TimeValue(Pull(cues, m, k)[m[j]].end).Some? <==> TimeValue(cues[m[j]].end).Some?)
  {
    PullFacts(cues, m, k);
  }

  /** A failing check names the first position whose time it cannot read:
      every time before it reads, and the end or the start there does not. */
  lemma {:induction false} FixFromFault(cues: seq<Cue>, m: seq<nat>, k: nat)
    requires ValidIndices(cues, m) && k <= |m|
    requires FixFrom(cues, m, k).Err?
    ensures FixFrom(cues, m, k).error.NotATime?
    ensures var q := FixFrom(cues, m, k).error.position;
      && k <= q < |m|
      && (forall j :: k <= j < q ==> TimeValue(cues[m[j]].end).Some?)
      && (forall j :: k < j < q ==> TimeValue(cues[m[j]].start).Some?)
      && (TimeValue(cues[m[q]].end).None? || (q > k && TimeValue(cues[m[q]].start).None?))
    decreases |m| - k
  {
    if TimeValue(cues[m[k]].end).None? {
    } else if TimeValue(cues[m[k + 1]].start).None? {
    } else {
      var fixed := Pull(cues, m, k);
      PullTimes(cues, m, k);
      assert FixFrom(cues, m, k) == FixFrom(fixed, m, k + 1);
      FixFromFault(fixed, m, k + 1);
    }
  }

  /** A successful check at position `k` reads both times there and goes on
      from the pulled cues; at the last position it changes nothing. */
  lemma FixFromStep(cues: seq<Cue>, m: seq<nat>, k: nat)
    requires ValidIndices(cues, m) && k <= |m|
    requires FixFrom(cues, m, k).Ok?
    ensures k + 1 >= |m| ==> FixFrom(cues, m, k).value == cues
    ensures k + 1 < |m| ==>
      && TimeValue(cues[m[k]].end).Some? && TimeValue(cues[m[k + 1]].start).Some?
      && FixFrom(cues, m, k) == FixFrom(Pull(cues, m, k), m, k + 1)
  {
  }

  /** The check rewrites only ends: each cue keeps its start, lines and id. */
  lemma {:induction false} FixFromFields(cues: seq<Cue>, m: seq<nat>, k: nat)
    requires ValidIndices(cues, m) && k <= |m|
    requires FixFrom(cues, m, k).Ok?
    ensures var r := FixFrom(cues, m, k).value;
      && |r| == |cues|
      && forall i :: 0 <= i < |cues| ==>
        r[i].start == cues[i].start && r[i].lines == cues[i].lines && r[i].id == cues[i].id
    decreases |m| - k
  {
    FixFromStep(cues, m, k);
    if k + 1 < |m| {
      PullFacts(cues, m, k);
      FixFromFields(Pull(cues, m, k), m, k + 1);
    }
  }

  /** A rewritten end is the start of the cue at the position after one of
      the cue's own; a cue at no position before the last keeps its end. */
  lemma {:induction false} FixFromEnds(cues: seq<Cue>, m: seq<nat>, k: nat)
    requires ValidIndices(cues, m) && k <= |m|
    requires FixFrom(cues, m, k).Ok?
    ensures var r := FixFrom(cues, m, k).value;
      && |r| == |cues|
      && (forall i :: 0 <= i < |cues| ==>
        || r[i].end == cues[i].end
        || exists p :: k <= p < |m| - 1 && m[p] == i && r[i].end == cues[m[p + 1]].start)
      && (forall i :: 0 <= i < |cues| && (forall p :: k <= p < |m| - 1 ==> m[p] != i) ==> r[i] == cues[i])
    decreases |m| - k
  {
    FixFromStep(cues, m, k);
    if k + 1 < |m| {
      var fixed := Pull(cues, m, k);
      PullFacts(cues, m, k);
      FixFromEnds(fixed, m, k + 1);
      var r := FixFrom(fixed, m, k + 1).value;
      forall i | 0 <= i < |cues|
        ensures || r[i].end == cues[i].end
                || exists p :: k <= p < |m| - 1 && m[p] == i && r[i].end == cues[m[p + 1]].start
      {
        if r[i].end != cues[i].end && r[i].end == fixed[i].end {
          assert m[k] == i && r[i].end == cues[m[k + 1]].start;
        } else if r[i].end != fixed[i].end {
          var p :| k + 1 <= p < |m| - 1 && m[p] == i && r[i].end == fixed[m[p + 1]].start;
          assert fixed[m[p + 1]].start == cues[m[p + 1]].start;
        }
      }
    }
  }

  /** Ends only move earlier: a readable end stays readable and its value
      never grows. */
  lemma {:induction false} FixFromShrinks(cues: seq<Cue>, m: seq<nat>, k: nat)
    requires ValidIndices(cues, m) && k <= |m|
    requires FixFrom(cues, m, k).Ok?
    ensures var r := FixFrom(cues, m, k).value;
      && |r| == |cues|
      && forall i :: 0 <= i < |cues| && TimeValue(cues[i].end).Some? ==>
        TimeValue(r[i].end).Some? && TimeValue(r[i].end).value <= TimeValue(cues[i].end).value
    decreases |m| - k
  {
    FixFromStep(cues, m, k);
    if k + 1 < |m| {
      PullFacts(cues, m, k);
      FixFromShrinks(Pull(cues, m, k), m, k + 1);
    }
  }

  /** After the check, no cue ends after the cue at the next position starts. */
  lemma {:induction false} FixFromOrdered(cues: seq<Cue>, m: seq<nat>, k: nat)
    requires ValidIndices(cues, m) && k <= |m|
    requires FixFrom(cues, m, k).Ok?
    ensures var r := FixFrom(cues, m, k).value;
      && ValidIndices(r, m)
      && forall p: nat :: k <= p < |m| - 1 ==> InOrder(r, m, p)
    decreases |m| - k
  {
    FixFromStep(cues, m, k);
    if k + 1 < |m| {
      var fixed := Pull(cues, m, k);
      var r := FixFrom(fixed, m, k + 1).value;
      PullFacts(cues, m, k);
      FixFromOrdered(fixed, m, k + 1);
      FixFromShrinks(fixed, m, k + 1);
      FixFromFields(fixed, m, k + 1);
      assert InOrder(r, m, k);
    }
  }

  /** `_timestamp_check` over the whole match list. */
  function FixOverlaps(a: Aligned): (r: Result<Aligned, Fault>)
    requires ValidIndices(a.cues, a.matched)
    ensures r.Ok? ==> r.value.matched == a.matched && |r.value.cues| == |a.cues|
  {
    match FixFrom(a.cues, a.matched, 0)
    case Err(f) => Err(f)
    case Ok(cues) =>
      FixFromFields(a.cues, a.matched, 0);
      Ok(Aligned(cues, a.matched))
  }

  /** The check succeeds exactly when every matched end, and every matched
      start after the first, reads as a time. */
  lemma FixOverlapsOk(a: Aligned)
    requires ValidIndices(a.cues, a.matched)
    ensures FixOverlaps(a).Ok? <==>
      EndsReadable(a.cues, a.matched, 0) && StartsReadable(a.cues, a.matched, 0)
  {
    FixFromOk(a.cues, a.matched, 0);
  }

  /** After a successful check no matched cue ends after the cue at the next
      position starts, and the ends moved only earlier. Starts are untouched,
      so this is not time order: a cue that took an earlier cue's start can
      still begin before the cue in front of it. */
  lemma FixOverlapsOrdered(a: Aligned)
    requires ValidIndices(a.cues, a.matched)
    requires FixOverlaps(a).Ok?
    ensures var r := FixOverlaps(a).value;
      && ValidIndices(r.cues, r.matched)
      && (forall p: nat :: p < |r.matched| - 1 ==> InOrder(r.cues, r.matched, p))
      && (forall i :: 0 <= i < |a.cues| && TimeValue(a.cues[i].end).Some? ==>
        TimeValue(r.cues[i].end).Some? && TimeValue(r.cues[i].end).value <= TimeValue(a.cues[i].end).value)
  {
    FixFromOrdered(a.cues, a.matched, 0);
    FixFromShrinks(a.cues, a.matched, 0);
  }

  /** The stamp 00:00:10.000 reads as 10000. */
  lemma TenSeconds()
    ensures Numeric("00:00:10.000") == Some(10000)
  {
    assert "0"[..0] == "";
    assert Numeric("0") == Some(0);
    assert "00"[..1] == "0";
    assert Numeric("00") == Some(0);
    assert "00:"[..2] == "00";
    assert Numeric("00:") == Some(0);
    assert "00:0"[..3] == "00:";
    assert Numeric("00:0") == Some(0);
    assert "00:00"[..4] == "00:0";
    assert Numeric("00:00") == Some(0);
    assert "00:00:"[..5] == "00:00";
    assert Numeric("00:00:") == Some(0);
    assert "00:00:1"[..6] == "00:00:";
    assert Numeric("00:00:1") == Some(1);
    assert "00:00:10"[..7] == "00:00:1";
    assert Numeric("00:00:10") == Some(10);
    assert "00:00:10."[..8] == "00:00:10";
    assert Numeric("00:00:10.") == Some(10);
    assert "00:00:10.0"[..9] == "00:00:10.";
    assert Numeric("00:00:10.0") == Some(100);
    assert "00:00:10.00"[..10] == "00:00:10.0";
    assert Numeric("00:00:10.00") == Some(1000);
    assert "00:00:10.000"[..11] == "00:00:10.00";
    assert Numeric("00:00:10.000") == Some(10000);
  }

  /** The stamp 00:00:08.000 reads as 8000. */
  lemma EightSeconds()
    ensures Numeric("00:00:08.000") == Some(8000)
  {
    assert "0"[..0] == "";
    assert Numeric("0") == Some(0);
    assert "00"[..1] == "0";
    assert Numeric("00") == Some(0);
    assert "00:"[..2] == "00";
    assert Numeric("00:") == Some(0);
    assert "00:0"[..3] == "00:";
    assert Numeric("00:0") == Some(0);
    assert "00:00"[..4] == "00:0";
    assert Numeric("00:00") == Some(0);
    assert "00:00:"[..5] == "00:00";
    assert Numeric("00:00:") == Some(0);
    assert "00:00:0"[..6] == "00:00:";
    assert Numeric("00:00:0") == Some(0);
    assert "00:00:08"[..7] == "00:00:0";
    assert Numeric("00:00:08") == Some(8);
    assert "00:00:08."[..8] == "00:00:08";
    assert Numeric("00:00:08.") == Some(8);
    assert "00:00:08.0"[..9] == "00:00:08.";
    assert Numeric("00:00:08.0") == Some(80);
    assert "00:00:08.00"[..10] == "00:00:08.0";
    assert Numeric("00:00:08.00") == Some(800);
    assert "00:00:08.000"[..11] == "00:00:08.00";
    assert Numeric("00:00:08.000") == Some(8000);
  }

  /** A cue ending at 00:00:10.000 followed by one starting at 00:00:08.000
      ends at 00:00:08.000 after the check; the second cue is unchanged. */
  lemma OverlapPulledBack(a: Cue, b: Cue)
    requires a.end == Some("00:00:10.000") && b.start == Some("00:00:08.000") && b.end.Some?
    requires TimeValue(b.end).Some?
    ensures FixOverlaps(Aligned([a, b], [0, 1])) == Ok(Aligned([a.(end := b.start), b], [0, 1]))
  {
    TenSeconds();
    EightSeconds();
    var pulled := Pull([a, b], [0, 1], 0);
    assert pulled == [a.(end := b.start), b];
    assert FixFrom([a, b], [0, 1], 0) == FixFrom(pulled, [0, 1], 1);
  }
}

=== FILE: patterns.dfy ===
/** The three fixed regular expressions of the subtitle parser,

      time_reg  = ^([0-9]{2}:?){3}\.[0-9]{3} --> ([0-9]{2}:?){3}\.[0-9]{3}
      stamp_reg = <([0-9]{2}:?){3}\.[0-9]{3}>
      tag_reg   = </?c>

    written as sequences of tokens and matched by one left-to-right scan.
    An optional character is taken whenever it is present: in each pattern it
    is followed by a required character it differs from (':' by a digit or
    the '.', '/' by 'c'), so leaving it would make the next token fail and
    backtracking never finds a different match. A scan returns the position
    just after its match. */
module Patterns {
  import opened Wrappers
  import opened Text

  /** One position of a pattern: any digit, one fixed character, or a
      character that may be left out. */
  datatype Token = Digit | Exactly(c: char) | Optional(c: char)

  /** A pattern: its tokens in order. */
  datatype Regex = Done | Then(head: Token, tail: Regex)

  /** End of a match of the single token `tk` at position `i` of `s`. */
  function Take(tk: Token, s: string, i: nat): (r: Option<nat>)
    requires i <= |s|
    ensures r.Some? ==> i <= r.value <= i + 1 && r.value <= |s|
    ensures r.Some? && !tk.Optional? ==> r.value == i + 1
  {
    match tk
    case Digit => if i < |s| && IsDigit(s[i]) then Some(i + 1) else None
    case Exactly(c) => if i < |s| && s[i] == c then Some(i + 1) else None
    case Optional(c) => Some(if i < |s| && s[i] == c then i + 1 else i)
  }

  /** End of a match of `re` at position `i` of `s`. */
  function Scan(re: Regex, s: string, i: nat): (r: Option<nat>)
    requires i <= |s|
    ensures r.Some? ==> i <= r.value <= |s|
    ensures r.Some? && Solid(re) && re.Then? ==> i < r.value
  {
    match re
    case Done => Some(i)
    case Then(tk, rest) =>
      match Take(tk, s, i)
      case None => None
      case Some(j) => Scan(rest, s, j)
  }

  /** The pattern does not end in an optional character, so a match is
      decided by the characters it covers. */
  predicate Solid(re: Regex) {
    match re
    case Done => true
    case Then(tk, rest) => if rest.Done? then !tk.Optional? else Solid(rest)
  }

  /** The pattern needs a '.' somewhere. */
  predicate NeedsDot(re: Regex) {
    match re
    case Done => false
    case Then(tk, rest) => tk == Exactly('.') || NeedsDot(rest)
  }

  /** `a` followed by `b`. */
  function Append(a: Regex, b: Regex): Regex {
    match a
    case Done => b
    case Then(tk, rest) => Then(tk, Append(rest, b))
  }

  /** `[0-9]{2}:?` in front of `rest`. */
  function Group(rest: Regex): Regex {
    Then(Digit, Then(Digit, Then(Optional(':'), rest)))
  }

  /** `([0-9]{2}:?){3}\.[0-9]{3}` in front of `rest`. */
  function StampThen(rest: Regex): Regex {
    Group(Group(Group(Then(Exactly('.'), Then(Digit, Then(Digit, Then(Digit, rest)))))))
  }

  /** `([0-9]{2}:?){3}\.[0-9]{3}` */
  const StampRe: Regex := StampThen(Done)

  /** `s` is exactly one time stamp such as `00:01:02.345` or `000102.345`. */
  predicate IsStamp(s: string) {
    Scan(StampRe, s, 0) == Some(|s|)
  }

  /** The `n` characters of `s` from position `i` are those of `t` from `j`. */
  predicate Agree(s: string, i: nat, t: string, j: nat, n: nat) {
    i + n <= |s| && j + n <= |t| && s[i..i + n] == t[j..j + n]
  }

  lemma AgreeFirst(s: string, i: nat, t: string, j: nat, n: nat)
    requires Agree(s, i, t, j, n) && n > 0
    ensures s[i] == t[j]
  {
    assert s[i..i + n][0] == t[j..j + n][0];
  }

  lemma AgreeDrop(s: string, i: nat, t: string, j: nat, n: nat, m: nat)
    requires Agree(s, i, t, j, n) && m <= n
    ensures Agree(s, i + m, t, j + m, n - m)
  {
    assert s[i + m..i + n] == s[i..i + n][m..];
    assert t[j + m..j + n] == t[j..j + n][m..];
  }

  /** Matching `a` then `b` is matching `a` and then `b` where `a` stopped. */
  lemma {:induction false} ScanAppend(a: Regex, b: Regex, s: string, i: nat)
    requires i <= |s|
    ensures Scan(Append(a, b), s, i) == if Scan(a, s, i).None? then None else Scan(b, s, Scan(a, s, i).value)
  {
    if a.Then? && Take(a.head, s, i).Some? {
      ScanAppend(a.tail, b, s, Take(a.head, s, i).value);
    }
  }

  /** A token is decided by the character it looks at. */
  lemma TakeLocal(tk: Token, s: string, i: nat, t: string, j: nat)
    requires i < |s| && j < |t| && s[i] == t[j]
    ensures Take(tk, t, j).Some? <==> Take(tk, s, i).Some?
    ensures Take(tk, s, i).Some? ==> Take(tk, t, j).value == Take(tk, s, i).value - i + j
  {
  }

  /** A match of a solid pattern is decided by the characters it covers. */
  lemma {:induction false} ScanLocal(re: Regex, s: string, i: nat, t: string, j: nat)
    requires i <= |s| && j <= |t| && Solid(re)
    requires Scan(re, s, i).Some? && Agree(s, i, t, j, Scan(re, s, i).value - i)
    ensures Scan(re, t, j) == Some(Scan(re, s, i).value - i + j)
  {
    if re.Then? {
      var e := Scan(re, s, i).value;
      var k := Take(re.head, s, i).value;
      LocalHead(re, s, i, t, j);
      ScanLocal(re.tail, s, k, t, k - i + j);
    }
  }

  /** The first token of a match agrees, and the rest of the match agrees. */
  lemma LocalHead(re: Regex, s: string, i: nat, t: string, j: nat)
    requires i <= |s| && j <= |t| && Solid(re) && re.Then?
    requires Scan(re, s, i).Some? && Agree(s, i, t, j, Scan(re, s, i).value - i)
    ensures Take(re.head, s, i).Some?
    ensures var k := Take(re.head, s, i).value;
      && k - i + j <= |t|
      && Take(re.head, t, j) == Some(k - i + j)
      && Solid(re.tail)
      && Scan(re.tail, s, k) == Scan(re, s, i)
      && Agree(s, k, t, k - i + j, Scan(re, s, i).value - k)
  {
    var e := Scan(re, s, i).value;
    var k := Take(re.head, s, i).value;
    AgreeFirst(s, i, t, j, e - i);
    TakeLocal(re.head, s, i, t, j);
    AgreeDrop(s, i, t, j, e - i, k - i);
  }

  /** `o` moved `k` positions to the right. */
  function Shifted(o: Option<nat>, k: nat): Option<nat> {
    if o.None? then None else Some(o.value + k)
  }

  /** Matching in `s` at `k + i` is matching in the suffix `s[k..]` at `i`. */
  lemma {:induction false} ScanSuffix(re: Regex, s: string, k: nat, i: nat)
    requires k + i <= |s|
    ensures Scan(re, s, k + i) == Shifted(Scan(re, s[k..], i), k)
  {
    if re.Then? {
      var t := s[k..];
      if k + i < |s| {
        assert t[i] == s[k + i];
        TakeLocal(re.head, t, i, s, k + i);
      }
      if Take(re.head, t, i).Some? {
        ScanSuffix(re.tail, s, k, Take(re.head, t, i).value);
      }
    }
  }

  /** A pattern that needs a '.' never matches digits alone. */
  lemma {:induction false} ScanNeedsDot(re: Regex, s: string, i: nat)
    requires i <= |s| && NeedsDot(re)
    requires forall k :: 0 <= k < |s| ==> IsDigit(s[k])
    ensures Scan(re, s, i).None?
  {
    if re.head != Exactly('.') && Take(re.head, s, i).Some? {
      ScanNeedsDot(re.tail, s, Take(re.head, s, i).value);
    }
  }

  /** A stamp followed by anything is still matched as exactly that stamp: the
      trailing `[0-9]{3}` ends the pattern. */
  lemma StampPrefix(st: string, rest: string)
    requires IsStamp(st)
    ensures Scan(StampRe, st + rest, 0) == Some(|st|)
  {
    assert (st + rest)[0..|st|] == st[0..|st|];
    StampEmbedded(st, st + rest, 0);
  }

  /** The text a stamp match covers is itself a stamp. */
  lemma StampMatched(s: string, i: nat)
    requires i <= |s| && Scan(StampRe, s, i).Some?
    ensures IsStamp(s[i..Scan(StampRe, s, i).value])
  {
    var e := Scan(StampRe, s, i).value;
    assert s[i..e][0..e - i] == s[i..e];
    assert Solid(StampRe);
    ScanLocal(StampRe, s, i, s[i..e], 0);
  }

  /** A string of digits alone is never a stamp: the pattern needs a '.'. */
  lemma DigitsAreNoStamp(s: string)
    requires forall k :: 0 <= k < |s| ==> IsDigit(s[k])
    ensures !IsStamp(s)
  {
    assert NeedsDot(StampRe);
    ScanNeedsDot(StampRe, s, 0);
  }

  /** A stamp starts with a digit. */
  lemma StampStartsWithDigit(s: string)
    requires IsStamp(s)
    ensures |s| > 0 && IsDigit(s[0])
  {
    assert StampRe.head == Digit;
  }

  // ---------------------------------------------------------------------------
  // Timing lines

  datatype Timing = Timing(start: string, end: string)

  const Arrow: string := " --> "

  /** `re.match(time_reg, line)` followed by splitting the matched text around
      `" --> "`; `None` when the line is not a timing line. Whatever follows the
      end stamp (cue settings) is not part of the match. */
  function TimingOf(line: string): Option<Timing> {
    match Scan(StampRe, line, 0)
    case None => None
    case Some(a) =>
      if a + 5 <= |line| && line[a..a + 5] == Arrow then
        match Scan(StampRe, line, a + 5)
        case None => None
        case Some(e) => Some(Timing(line[..a], line[a + 5..e]))
      else None
  }

  /** The start of a timing line is a stamp. */
  lemma TimingStartIsStamp(line: string)
    requires TimingOf(line).Some?
    ensures IsStamp(TimingOf(line).value.start)
  {
    StampMatched(line, 0);
    assert line[0..Scan(StampRe, line, 0).value] == line[..Scan(StampRe, line, 0).value];
  }

  /** The end of a timing line is a stamp. */
  lemma TimingEndIsStamp(line: string)
    requires TimingOf(line).Some?
    ensures IsStamp(TimingOf(line).value.end)
  {
    StampMatched(line, Scan(StampRe, line, 0).value + 5);
  }

  /** A recognised timing line begins with its start stamp, `" --> "` and its
      end stamp; only cue settings may follow. */
  lemma TimingOfShape(line: string)
    requires TimingOf(line).Some?
    ensures var t := TimingOf(line).value;
      && IsStamp(t.start) && IsStamp(t.end)
      && |t.start| + 5 + |t.end| <= |line|
      && line[..|t.start| + 5 + |t.end|] == t.start + Arrow + t.end
  {
    TimingStartIsStamp(line);
    TimingEndIsStamp(line);
    var a := Scan(StampRe, line, 0).value;
    var e := Scan(StampRe, line, a + 5).value;
    assert line[..e] == line[..a] + line[a..a + 5] + line[a + 5..e];
  }

  /** Conversely, a line that starts with `<stamp> --> <stamp>` is a timing line
      with exactly those two stamps, whatever settings follow. */
  lemma TimingOfLine(st: string, en: string, settings: string)
    requires IsStamp(st) && IsStamp(en)
    ensures TimingOf(st + Arrow + en + settings) == Some(Timing(st, en))
  {
    var line := st + Arrow + en + settings;
    var a := |st|;
    StartOfTimingLine(st, Arrow + en + settings);
    assert line == st + (Arrow + en + settings);
    assert line[a..a + 5] == Arrow;
    MiddleAgrees(st + Arrow, en, settings);
    assert line == st + Arrow + en + settings;
    StampEmbedded(en, line, a + 5);
    assert line[..a] == st;
  }

  /** A line is recognised with the stamps `t` exactly when it begins with
      `t.start`, `" --> "` and `t.end`, both stamps. */
  lemma TimingOfIff(line: string, t: Timing)
    ensures TimingOf(line) == Some(t) <==>
      && IsStamp(t.start) && IsStamp(t.end)
      && |t.start| + 5 + |t.end| <= |line|
      && line[..|t.start| + 5 + |t.end|] == t.start + Arrow + t.end
  {
    var n := |t.start| + 5 + |t.end|;
    if TimingOf(line) == Some(t) {
      TimingOfShape(line);
    } else if IsStamp(t.start) && IsStamp(t.end) && n <= |line| && line[..n] == t.start + Arrow + t.end {
      assert line == t.start + Arrow + t.end + line[n..];
      TimingOfLine(t.start, t.end, line[n..]);
    }
  }

  lemma StartOfTimingLine(st: string, rest: string)
    requires IsStamp(st)
    ensures Scan(StampRe, st + rest, 0) == Some(|st|) && (st + rest)[..|st|] == st
  {
    StampPrefix(st, rest);
  }

  /** The middle of three strings agrees with the string itself. */
  lemma MiddleAgrees(head: string, mid: string, tail: string)
    ensures Agree(mid, 0, head + mid + tail, |head|, |mid|)
    ensures (head + mid + tail)[|head|..|head| + |mid|] == mid
  {
    assert (head + mid + tail)[|head|..|head| + |mid|] == mid;
    assert mid[0..|mid|] == mid;
  }

  /** A stamp copied into a line at position `k` is matched there. */
  lemma StampEmbedded(st: string, line: string, k: nat)
    requires IsStamp(st) && k <= |line| && Agree(st, 0, line, k, |st|)
    ensures Scan(StampRe, line, k) == Some(k + |st|)
  {
    assert Solid(StampRe);
    ScanLocal(StampRe, st, 0, line, k);
  }

  // ---------------------------------------------------------------------------
  // Inline markup and `re.sub`

  /** `stamp_reg`, `<([0-9]{2}:?){3}\.[0-9]{3}>` */
  const StampTagRe: Regex := Then(Exactly('<'), StampThen(Then(Exactly('>'), Done)))

  /** `tag_reg`, `</?c>` */
  const TagRe: Regex := Then(Exactly('<'), Then(Optional('/'), Then(Exactly('c'), Then(Exactly('>'), Done))))

  /** A pattern whose every match starts with a '<', as both of the above. */
  predicate Markup(re: Regex) {
    re.Then? && re.head == Exactly('<')
  }

  /** End of a match of `re` at position `i` of `s`; every match starts with '<'. */
  function MatchEnd(re: Regex, s: string, i: nat): (r: Option<nat>)
    requires i <= |s| && Markup(re)
    ensures r.Some? ==> i < r.value <= |s| && s[i] == '<'
  {
    Scan(re, s, i)
  }

  /** `re.sub(re, "", s)`: scanning from the left, a match is dropped and
      otherwise one character is kept; the output is not rescanned. Neither
      pattern looks behind its match, so matching at a position of the line
      is matching at the start of what remains (`ScanSuffix`). */
  function Erase(re: Regex, s: string): (r: string)
    requires Markup(re)
    ensures |r| <= |s|
    decreases |s|
  {
    if |s| == 0 then ""
    else match MatchEnd(re, s, 0)
      case Some(n) => Erase(re, s[n..])
      case None => [s[0]] + Erase(re, s[1..])
  }

  /** The text kept for a non-timing line: first every inline stamp, then every
      `<c>`/`</c>` tag removed. */
  function CleanText(line: string): string {
    Erase(TagRe, Erase(StampTagRe, line))
  }

  /** A first character that starts no match is kept. */
  lemma EraseFirst(re: Regex, s: string)
    requires Markup(re) && |s| > 0
    requires s[0] != '<' || MatchEnd(re, s, 0).None?
    ensures Erase(re, s) == [s[0]] + Erase(re, s[1..])
  {
  }

  /** A run without '<' is kept as it is, and erasing goes on behind it. */
  lemma {:induction false} ErasePlain(re: Regex, v: string, rest: string)
    requires Markup(re)
    requires forall d :: 0 <= d < |v| ==> v[d] != '<'
    ensures Erase(re, v + rest) == v + Erase(re, rest)
    decreases |v|
  {
    if |v| > 0 {
      var s := v + rest;
      assert s[0] == v[0];
      EraseFirst(re, s);
      assert s[1..] == v[1..] + rest;
      ErasePlain(re, v[1..], rest);
      assert [v[0]] + (v[1..] + Erase(re, rest)) == ([v[0]] + v[1..]) + Erase(re, rest);
      assert [v[0]] + v[1..] == v;
    } else {
      assert v + rest == rest && v + Erase(re, rest) == Erase(re, rest);
    }
  }

  /** Text that does not start a match and has no other '<' is kept, and
      erasing goes on behind it as if it were not there. */
  lemma EraseKeeps(re: Regex, u: string, rest: string)
    requires Markup(re) && forall d :: 0 < d < |u| ==> u[d] != '<'
    requires |u| > 0 ==> MatchEnd(re, u + rest, 0).None?
    ensures Erase(re, u + rest) == u + Erase(re, rest)
  {
    if |u| > 0 {
      EraseFirst(re, u + rest);
      EraseRunAfter(re, u, rest);
    } else {
      assert u + rest == rest && u + Erase(re, rest) == Erase(re, rest);
    }
  }

  /** What follows a kept first character of `u` is a run without '<'. */
  lemma EraseRunAfter(re: Regex, u: string, rest: string)
    requires Markup(re) && |u| > 0 && forall d :: 0 < d < |u| ==> u[d] != '<'
    ensures [u[0]] + Erase(re, (u + rest)[1..]) == u + Erase(re, rest)
  {
    assert (u + rest)[1..] == u[1..] + rest;
    ErasePlain(re, u[1..], rest);
    assert [u[0]] + (u[1..] + Erase(re, rest)) == ([u[0]] + u[1..]) + Erase(re, rest);
    assert [u[0]] + u[1..] == u;
  }

  /** A match at the start is dropped whole. */
  lemma EraseSkip(re: Regex, u: string, rest: string)
    requires Markup(re) && MatchEnd(re, u + rest, 0) == Some(|u|)
    ensures Erase(re, u + rest) == Erase(re, rest)
  {
    assert (u + rest)[|u|..] == rest;
  }

  // ---------------------------------------------------------------------------
  // What cleaning keeps: a line viewed as plain runs and markup

  datatype Span =
    | Plain(text: string)      // caption text, free of '<'
    | InlineStamp(stamp: string)  // rendered as `<stamp>`
    | ClassTag(closing: bool)  // rendered as `<c>` or `</c>`

  predicate WellFormedSpan(sp: Span) {
    match sp
    case Plain(t) => forall i :: 0 <= i < |t| ==> t[i] != '<'
    case InlineStamp(st) => IsStamp(st)
    case ClassTag(_) => true
  }

  function SpanText(sp: Span): string {
    match sp
    case Plain(t) => t
    case InlineStamp(st) => "<" + st + ">"
    case ClassTag(closing) => if closing then "</c>" else "<c>"
  }

  function Render(sps: seq<Span>): string
    decreases |sps|
  {
    if |sps| == 0 then "" else SpanText(sps[0]) + Render(sps[1..])
  }

  /** The caption text of a line: its plain runs, in order. */
  function PlainText(sps: seq<Span>): string
    decreases |sps|
  {
    if |sps| == 0 then ""
    else (if sps[0].Plain? then sps[0].text else "") + PlainText(sps[1..])
  }

  /** The same line with its inline stamps dropped. */
  function WithoutStamps(sps: seq<Span>): seq<Span>
    decreases |sps|
  {
    if |sps| == 0 then []
    else (if sps[0].InlineStamp? then [] else [sps[0]]) + WithoutStamps(sps[1..])
  }

  /** A plain run is kept by both passes. */
  lemma ErasePlainSpan(re: Regex, t: string, rest: string)
    requires Markup(re) && WellFormedSpan(Plain(t))
    ensures Erase(re, t + rest) == t + Erase(re, rest)
  {
    ErasePlain(re, t, rest);
  }

  /** An inline stamp is one `stamp_reg` match. */
  lemma StampTagMatch(st: string, rest: string)
    requires IsStamp(st)
    ensures MatchEnd(StampTagRe, "<" + st + ">" + rest, 0) == Some(|st| + 2)
  {
    var s := "<" + st + ">" + rest;
    var close := Then(Exactly('>'), Done);
    assert s[0] == '<';
    assert StampThen(close) == Append(StampRe, close);
    assert Scan(StampTagRe, s, 0) == Scan(Append(StampRe, close), s, 1);
    ScanAppend(StampRe, close, s, 1);
    MiddleAgrees("<", st, ">" + rest);
    assert s == "<" + st + (">" + rest);
    StampEmbedded(st, s, 1);
    assert s[1 + |st|] == '>';
    assert Scan(close, s, 1 + |st|) == Some(|st| + 2);
  }

  /** `<c>` and `</c>` are not stamps: after the '<' the pattern needs a digit. */
  lemma ClassTagIsNoStamp(closing: bool, rest: string)
    ensures MatchEnd(StampTagRe, SpanText(ClassTag(closing)) + rest, 0).None?
  {
    var s := SpanText(ClassTag(closing)) + rest;
    assert !IsDigit(s[1]);
    assert Scan(StampThen(Then(Exactly('>'), Done)), s, 1).None?;
  }

  /** The stamp pass leaves `<c>` and `</c>` in place for the tag pass. */
  lemma StampPassKeepsClassTag(closing: bool, rest: string)
    ensures Erase(StampTagRe, SpanText(ClassTag(closing)) + rest) == SpanText(ClassTag(closing)) + Erase(StampTagRe, rest)
  {
    ClassTagIsNoStamp(closing, rest);
    EraseKeeps(StampTagRe, SpanText(ClassTag(closing)), rest);
  }

  /** `<c>` and `</c>` are whole `tag_reg` matches. */
  lemma ClassTagMatch(closing: bool, rest: string)
    ensures MatchEnd(TagRe, SpanText(ClassTag(closing)) + rest, 0) == Some(|SpanText(ClassTag(closing))|)
  {
    var s := SpanText(ClassTag(closing)) + rest;
    var n := |SpanText(ClassTag(closing))|;
    assert s[n - 1] == '>' && s[n - 2] == 'c';
    var close := Then(Exactly('>'), Done);
    assert Scan(close, s, n - 1) == Some(n);
    assert Scan(Then(Exactly('c'), close), s, n - 2) == Some(n);
    if closing {
      assert s[1] == '/';
    } else {
      assert s[1] == 'c';
    }
    assert Scan(TagRe.tail, s, 1) == Some(n);
  }

  lemma {:induction false} EraseStampsRender(sps: seq<Span>)
    requires forall k :: 0 <= k < |sps| ==> WellFormedSpan(sps[k])
    ensures Erase(StampTagRe, Render(sps)) == Render(WithoutStamps(sps))
    decreases |sps|
  {
    if |sps| > 0 {
      var rest := Render(sps[1..]);
      var w := WithoutStamps(sps[1..]);
      EraseStampsRender(sps[1..]);
      assert Render(sps) == SpanText(sps[0]) + rest;
      match sps[0]
      case Plain(t) =>
        ErasePlainSpan(StampTagRe, t, rest);
        assert WithoutStamps(sps) == [sps[0]] + w;
        assert ([sps[0]] + w)[1..] == w;
      case InlineStamp(st) =>
        StampTagMatch(st, rest);
        EraseSkip(StampTagRe, "<" + st + ">", rest);
        assert WithoutStamps(sps) == [] + w;
        assert [] + w == w;
      case ClassTag(closing) =>
        StampPassKeepsClassTag(closing, rest);
        assert WithoutStamps(sps) == [sps[0]] + w;
        assert ([sps[0]] + w)[1..] == w;
    }
  }

  lemma {:induction false} EraseTagsRender(sps: seq<Span>)
    requires forall k :: 0 <= k < |sps| ==> WellFormedSpan(sps[k]) && !sps[k].InlineStamp?
    ensures Erase(TagRe, Render(sps)) == PlainText(sps)
    decreases |sps|
  {
    if |sps| > 0 {
      var rest := Render(sps[1..]);
      EraseTagsRender(sps[1..]);
      assert Render(sps) == SpanText(sps[0]) + rest;
      EraseTagsSpan(sps[0], rest);
    }
  }

  /** The tag pass keeps a plain run and drops a `<c>` or `</c>` tag. */
  lemma EraseTagsSpan(sp: Span, rest: string)
    requires WellFormedSpan(sp) && !sp.InlineStamp?
    ensures Erase(TagRe, SpanText(sp) + rest) == (if sp.Plain? then sp.text else "") + Erase(TagRe, rest)
  {
    if sp.Plain? {
      ErasePlain(TagRe, sp.text, rest);
    } else {
      ClassTagMatch(sp.closing, rest);
      EraseSkip(TagRe, SpanText(sp), rest);
      assert "" + Erase(TagRe, rest) == Erase(TagRe, rest);
    }
  }

  lemma {:induction false} WithoutStampsFacts(sps: seq<Span>)
    requires forall k :: 0 <= k < |sps| ==> WellFormedSpan(sps[k])
    ensures forall k :: 0 <= k < |WithoutStamps(sps)| ==>
      WellFormedSpan(WithoutStamps(sps)[k]) && !WithoutStamps(sps)[k].InlineStamp?
    ensures PlainText(WithoutStamps(sps)) == PlainText(sps)
    decreases |sps|
  {
    if |sps| > 0 {
      WithoutStampsFacts(sps[1..]);
      var w := WithoutStamps(sps[1..]);
      if sps[0].InlineStamp? {
        assert WithoutStamps(sps) == [] + w;
        assert [] + w == w;
        assert PlainText(sps) == "" + PlainText(sps[1..]);
      } else {
        assert WithoutStamps(sps) == [sps[0]] + w;
        assert ([sps[0]] + w)[1..] == w;
      }
    }
  }

  /** Cleaning a line removes exactly its inline stamps and `<c>`/`</c>` tags
      and keeps every other character, in order. */
  lemma {:induction false} CleanTextRender(sps: seq<Span>)
    requires forall k :: 0 <= k < |sps| ==> WellFormedSpan(sps[k])
    ensures CleanText(Render(sps)) == PlainText(sps)
  {
    EraseStampsRender(sps);
    WithoutStampsFacts(sps);
    EraseTagsRender(WithoutStamps(sps));
  }

  /** Class tags that carry a class name, such as `<c.colorE5E5E5>`, are not
      `tag_reg` matches and stay in the text. */
  lemma ClassNameTagKept(name: string, rest: string)
    requires forall i :: 0 <= i < |name| ==> name[i] != '<'
    ensures Erase(TagRe, "<c." + name + ">" + rest) == "<c." + name + ">" + Erase(TagRe, rest)
  {
    var u := "<c." + name + ">";
    var s := u + rest;
    assert s[1] == 'c' && s[2] == '.';
    assert Scan(TagRe.tail.tail, s, 1).None?;
    assert Scan(TagRe.tail, s, 1).None?;
    forall d | 0 < d < |u|
      ensures u[d] != '<'
    {
      if 3 <= d < |u| - 1 {
        assert u[d] == name[d - 3];
      }
    }
    EraseKeeps(TagRe, u, rest);
  }
}

=== FILE: pipeline.dfy ===
/** `SubtitleParser.process`: parse the cues, match the pending lines to cues,
    number the matches and pull back overlapping ends, in that order. */
module Pipeline {
  import opened Wrappers
  import opened Text
  import opened Patterns
  import opened Cues
  import opened Aligner
  import opened Ids
  import opened Overlaps

  /** The parser's state after `process`: the header and the cue list, with
      the matched cues as indices into it. */
  datatype Processed = Processed(header: string, cues: seq<Cue>, matched: seq<nat>)

  /** Everything `process` does after `_parse_cues`: `_match_text_lines`,
      `_add_id` and `_timestamp_check`, each stopping the run on an error. */
  function Run(p: Parsed): (r: Result<Processed, Fault>)
    requires Anchored(p.cues, p.pending)
    ensures r.Ok? ==> ValidIndices(r.value.cues, r.value.matched) && r.value.header == p.header
  {
    match MatchLines(p.cues, p.pending, [])
    case Err(e) => Err(e)
    case Ok(a) =>
      MatchLinesValid(p.cues, p.pending, []);
      AddIdsKeeps(a.cues, a.matched, 0);
      match FixOverlaps(Aligned(AddIds(a.cues, a.matched, 0), a.matched))
      case Err(e) => Err(e)
      case Ok(f) => Ok(Processed(p.header, f.cues, f.matched))
  }

  /** The whole of `process`; parsing leaves every pending line held by a
      cue, which the matching loop relies on. */
  function Process(text: string): (r: Result<Processed, Fault>)
    ensures r.Ok? ==> ValidIndices(r.value.cues, r.value.matched) && r.value.header == ParseCues(text).header
  {
    var p := ParseCues(text);
    PendingFacts(text);
    CoveredAnchored(p.cues, p.pending);
    Run(p)
  }

  /** `Process` is `Run` on the parsed text. */
  lemma ProcessRun(text: string)
    ensures Anchored(ParseCues(text).cues, ParseCues(text).pending)
    ensures Process(text) == Run(ParseCues(text))
  {
    PendingFacts(text);
    CoveredAnchored(ParseCues(text).cues, ParseCues(text).pending);
  }

  /** A successful run goes through a successful matching, and its result is
      the numbered, checked match list. */
  lemma RunSteps(p: Parsed)
    requires Anchored(p.cues, p.pending)
    requires Run(p).Ok?
    ensures MatchLines(p.cues, p.pending, []).Ok?
    ensures var a := MatchLines(p.cues, p.pending, []).value;
      && ValidIndices(a.cues, a.matched)
      && ValidIndices(AddIds(a.cues, a.matched, 0), a.matched)
      && FixOverlaps(Aligned(AddIds(a.cues, a.matched, 0), a.matched)).Ok?
      && var f := FixOverlaps(Aligned(AddIds(a.cues, a.matched, 0), a.matched)).value;
        Run(p) == Ok(Processed(p.header, f.cues, f.matched))
  {
    MatchLinesValid(p.cues, p.pending, []);
    var a := MatchLines(p.cues, p.pending, []).value;
    AddIdsKeeps(a.cues, a.matched, 0);
  }

  /** Empty input gives an empty header and no matches. */
  lemma ProcessEmpty()
    ensures Process("") == Ok(Processed("", [], []))
  {
    ParseEmpty();
    ProcessRun("");
  }

  // ---------------------------------------------------------------------------
  // Input where every block has a timing line

  /** A cue with both a start and an end stamp. */
  predicate Stamped(c: Cue) {
    c.start.Some? && c.end.Some? && IsStamp(c.start.value) && IsStamp(c.end.value)
  }

  predicate AllStamped(cues: seq<Cue>) {
    forall i :: 0 <= i < |cues| ==> Stamped(cues[i])
  }

  /** Matching copies starts between cues, so stamped cues stay stamped. */
  lemma {:induction false} MatchLinesStamped(cues: seq<Cue>, pending: seq<string>, matched: seq<nat>)
    requires Anchored(cues, pending) && AllStamped(cues)
    requires MatchLines(cues, pending, matched).Ok?
    ensures AllStamped(MatchLines(cues, pending, matched).value.cues)
    decreases |pending|
  {
    if |pending| > 0 {
      var rd := Step(cues, pending).value;
      assert AllStamped(rd.cues) by {
        FirstHolderExists(cues, pending);
        StepUpdate(cues, pending, Holders(cues, pending[0], 0)[0]);
      }
      StepNext(cues, pending);
      MatchLinesStamped(rd.cues, rd.pending, matched + [rd.chosen]);
    }
  }

  /** A stamp starts with a digit, so it reads as a time. */
  lemma StampReadable(s: string)
    requires IsStamp(s)
    ensures TimeValue(Some(s)).Some?
  {
    TimeValueSome(Some(s));
    StampStartsWithDigit(s);
  }

  /** When every cue has both stamps, the run cannot fail. */
  lemma RunStampedOk(p: Parsed)
    requires Anchored(p.cues, p.pending) && AllStamped(p.cues)
    ensures Run(p).Ok?
  {
    MatchLinesOk(p.cues, p.pending, []);
    MatchLinesStamped(p.cues, p.pending, []);
    MatchLinesValid(p.cues, p.pending, []);
    var a := MatchLines(p.cues, p.pending, []).value;
    AddIdsKeeps(a.cues, a.matched, 0);
    var numbered := AddIds(a.cues, a.matched, 0);
    forall j | 0 <= j < |a.matched|
      ensures TimeValue(numbered[a.matched[j]].end).Some?
      ensures TimeValue(numbered[a.matched[j]].start).Some?
    {
      assert Stamped(a.cues[a.matched[j]]);
      StampReadable(numbered[a.matched[j]].end.value);
      StampReadable(numbered[a.matched[j]].start.value);
    }
    FixOverlapsOk(Aligned(numbered, a.matched));
  }

  /** When every block after the header has a timing line, `process` cannot
      fail. */
  lemma ProcessTimedOk(text: string)
    requires forall k :: 0 <= k < |ParseCues(text).cues| ==> ParseCues(text).cues[k].start.Some?
    ensures Process(text).Ok?
  {
    ParsedCuesFresh(text);
    assert AllStamped(ParseCues(text).cues);
    ProcessRun(text);
    RunStampedOk(ParseCues(text));
  }

  /** A failing `process` implies some block after the header has no timing
      line. */
  lemma ProcessFails(text: string)
    requires Process(text).Err?
    ensures exists k :: 0 <= k < |ParseCues(text).cues| && ParseCues(text).cues[k].start.None?
  {
    if forall k :: 0 <= k < |ParseCues(text).cues| ==> ParseCues(text).cues[k].start.Some? {
      ProcessTimedOk(text);
    }
  }

  // ---------------------------------------------------------------------------
  // What a successful run delivers

  /** Every pending line is among the lines of a matched cue, and there are
      no more matches than pending lines. */
  lemma RunCovers(p: Parsed)
    requires Anchored(p.cues, p.pending)
    requires Run(p).Ok?
    ensures var r := Run(p).value;
      && |r.matched| <= |p.pending|
      && forall x :: x in p.pending ==>
        exists k :: 0 <= k < |r.matched| && x in r.cues[r.matched[k]].lines
  {
    RunSteps(p);
    var a := MatchLines(p.cues, p.pending, []).value;
    MatchLinesCount(p.cues, p.pending, []);
    MatchLinesCovers(p.cues, p.pending, []);
    AddIdsKeeps(a.cues, a.matched, 0);
    var numbered := AddIds(a.cues, a.matched, 0);
    FixFromFields(numbered, a.matched, 0);
    var r := Run(p).value;
    forall x | x in p.pending
      ensures exists k :: 0 <= k < |r.matched| && x in r.cues[r.matched[k]].lines
    {
      var k :| 0 <= k < |a.matched| && a.matched[k] < |a.cues| && x in a.cues[a.matched[k]].lines;
      assert x in r.cues[r.matched[k]].lines;
    }
  }

  /** After a successful run no matched cue ends after the next matched cue
      starts, and the cue at the last position referring to it carries that
      position plus one as its id. */
  lemma RunOrderedAndNumbered(p: Parsed)
    requires Anchored(p.cues, p.pending)
    requires Run(p).Ok?
    ensures var r := Run(p).value;
      && (forall q: nat :: q < |r.matched| - 1 ==> InOrder(r.cues, r.matched, q))
      && (forall q: nat :: q < |r.matched| && LastPosition(r.matched, q) ==> r.cues[r.matched[q]].id == Some(q + 1))
  {
    RunSteps(p);
    var a := MatchLines(p.cues, p.pending, []).value;
    AddIdsValue(a.cues, a.matched, 0);
    var numbered := Aligned(AddIds(a.cues, a.matched, 0), a.matched);
    FixOverlapsOrdered(numbered);
    FixFromFields(numbered.cues, numbered.matched, 0);
  }
}

=== FILE: text.dfy ===
/** The handful of Python string operations the subtitle parser relies on:
    `str.split`, `str.join`, `str.replace`, `str.strip`, digit filtering
    followed by `int`, and `str` of a non-negative integer. */
module Text {
  import opened Wrappers

  predicate IsDigit(c: char) {
    '0' <= c <= '9'
  }

  /** Characters Python's `str.isspace` accepts, which `str.strip()` removes. */
  predicate IsSpace(c: char) {
    || c == ' '
    || '\t' <= c <= '\r'
    || '\U{1C}' <= c <= '\U{1F}'
    || c == '\U{85}' || c == '\U{A0}' || c == '\U{1680}'
    || '\U{2000}' <= c <= '\U{200A}'
    || c == '\U{2028}' || c == '\U{2029}' || c == '\U{202F}'
    || c == '\U{205F}' || c == '\U{3000}'
  }

  // ---------------------------------------------------------------------------
  // Substring search, split and join

  /** `pat` occurs in `s` starting at position `i`. */
  predicate OccursAt(s: string, pat: string, i: nat) {
    i + |pat| <= |s| && s[i..i + |pat|] == pat
  }

  /** `pat` occurs nowhere in `s`. */
  predicate Free(s: string, pat: string) {
    forall j: nat :: j <= |s| ==> !OccursAt(s, pat, j)
  }

  /** The leftmost occurrence of `pat` in `s` at or after position `i`. */
  function FindFrom(s: string, pat: string, i: nat): (r: Option<nat>)
    requires |pat| > 0
    ensures r.Some? ==> i <= r.value && OccursAt(s, pat, r.value)
    ensures r.Some? ==> forall j: nat :: i <= j < r.value ==> !OccursAt(s, pat, j)
    ensures r.None? ==> forall j: nat :: i <= j ==> !OccursAt(s, pat, j)
    decreases |s| - i
  {
    if i + |pat| > |s| then None
    else if OccursAt(s, pat, i) then Some(i)
    else FindFrom(s, pat, i + 1)
  }

  /** Python's `sep.join(parts)`. */
  function Join(sep: string, parts: seq<string>): string {
    if |parts| == 0 then ""
    else if |parts| == 1 then parts[0]
    else parts[0] + sep + Join(sep, parts[1..])
  }

  /** Python's `s.split(sep)` for a non-empty separator: cut at each leftmost
      occurrence, scanning from the left. */
  function Split(s: string, sep: string): (parts: seq<string>)
    requires |sep| > 0
    ensures |parts| >= 1
    ensures forall k :: 0 <= k < |parts| ==> Free(parts[k], sep)
    ensures Join(sep, parts) == s
    ensures forall k :: 0 <= k < |parts| - 1 ==> PrefixClean(parts[k], sep)
    decreases |s|
  {
    match FindFrom(s, sep, 0)
    case None =>
      [s]
    case Some(i) =>
      var head := s[..i];
      var rest := Split(s[i + |sep|..], sep);
      assert Free(head, sep) by {
        forall j: nat | j <= |head| && OccursAt(head, sep, j)
          ensures false
        {
          assert head[j..j + |sep|] == s[j..j + |sep|];
          assert OccursAt(s, sep, j);
        }
      }
      LeftmostCutClean(s, sep, i);
      var parts := [head] + rest;
      assert parts[1..] == rest;
      assert s == head + sep + s[i + |sep|..];
      parts
  }

  /** The text before the leftmost occurrence of `sep` lets no occurrence start
      inside it, even across that occurrence. */
  lemma LeftmostCutClean(s: string, sep: string, i: nat)
    requires OccursAt(s, sep, i)
    requires forall j: nat :: j < i ==> !OccursAt(s, sep, j)
    ensures PrefixClean(s[..i], sep)
  {
    var head := s[..i];
    assert head + sep == s[..i + |sep|];
    forall j: nat | j < |head|
      ensures !OccursAt(head + sep, sep, j)
    {
      assert !OccursAt(s, sep, j);
      assert (head + sep)[j..j + |sep|] == s[..i + |sep|][j..j + |sep|] == s[j..j + |sep|];
    }
  }

  /** Python's `s.replace(pat, rep)`: every leftmost non-overlapping occurrence
      replaced, which is the same as joining the split pieces with `rep`. */
  function ReplaceAll(s: string, pat: string, rep: string): (r: string)
    requires |pat| > 0
    ensures Free(s, pat) ==> r == s
  {
    var parts := Split(s, pat);
    if Free(s, pat) then
      assert |parts| == 1 by {
        if |parts| > 1 {
          JoinOccurs(pat, parts);
        }
      }
      parts[0]
    else
      Join(rep, parts)
  }

  /** Joining one more piece appends the separator and that piece. */
  lemma {:induction false} JoinSnoc(sep: string, parts: seq<string>, x: string)
    requires |parts| >= 1
    ensures Join(sep, parts + [x]) == Join(sep, parts) + sep + x
    decreases |parts|
  {
    if |parts| == 1 {
      assert (parts + [x])[1..] == [x];
    } else {
      assert (parts + [x])[1..] == parts[1..] + [x];
      JoinSnoc(sep, parts[1..], x);
    }
  }

  /** When there are two or more pieces, the separator occurs in the joined text. */
  lemma JoinOccurs(sep: string, parts: seq<string>)
    requires |parts| > 1
    ensures OccursAt(Join(sep, parts), sep, |parts[0]|)
  {
    var s := Join(sep, parts);
    assert s == parts[0] + sep + Join(sep, parts[1..]);
    assert s[|parts[0]|..|parts[0]| + |sep|] == sep;
  }

  /** Splitting the text produced by `Join` gives back the pieces, provided no
      piece lets the separator start inside it (also across the following
      separator) and the last piece is free of it. */
  lemma {:induction false} SplitJoin(sep: string, parts: seq<string>)
    requires |sep| > 0 && |parts| >= 1
    requires forall k :: 0 <= k < |parts| - 1 ==> PrefixClean(parts[k], sep)
    requires Free(parts[|parts| - 1], sep)
    ensures Split(Join(sep, parts), sep) == parts
    decreases |parts|
  {
    var s := Join(sep, parts);
    if |parts| == 1 {
      assert s == parts[0];
    } else {
      var p := parts[0];
      var tail := Join(sep, parts[1..]);
      assert s == p + sep + tail;
      assert OccursAt(s, sep, |p|);
      forall j: nat | j < |p|
        ensures OccursAt(s, sep, j) == OccursAt(p + sep, sep, j)
      {
        assert s == (p + sep) + tail;
        assert s[j..j + |sep|] == (p + sep)[j..j + |sep|];
      }
      assert FindFrom(s, sep, 0) == Some(|p|);
      assert s[|p| + |sep|..] == tail;
      SplitJoin(sep, parts[1..]);
    }
  }

  /** Replacing the pattern in pieces joined by it joins the same pieces with
      the replacement, provided no piece lets the pattern start inside it
      (also across the following pattern) and the last piece is free of it. */
  lemma {:induction false} ReplaceAllJoin(pat: string, rep: string, parts: seq<string>)
    requires |pat| > 0 && |parts| >= 1
    requires forall k :: 0 <= k < |parts| - 1 ==> PrefixClean(parts[k], pat)
    requires Free(parts[|parts| - 1], pat)
    ensures ReplaceAll(Join(pat, parts), pat, rep) == Join(rep, parts)
  {
    SplitJoin(pat, parts);
    if |parts| > 1 {
      JoinOccurs(pat, parts);
    }
  }

  /** No occurrence of `sep` starts inside `p`, even when `p` is followed by `sep`. */
  predicate PrefixClean(p: string, sep: string) {
    forall j: nat :: j < |p| ==> !OccursAt(p + sep, sep, j)
  }

  // ---------------------------------------------------------------------------
  // str.strip()

  function TrimStart(s: string): (r: string)
    ensures |r| <= |s| && r == s[|s| - |r|..]
    ensures forall i :: 0 <= i < |s| - |r| ==> IsSpace(s[i])
    ensures |r| > 0 ==> !IsSpace(r[0])
    decreases |s|
  {
    if |s| > 0 && IsSpace(s[0]) then TrimStart(s[1..]) else s
  }

  function TrimEnd(s: string): (r: string)
    ensures |r| <= |s| && r == s[..|r|]
    ensures forall i :: |r| <= i < |s| ==> IsSpace(s[i])
    ensures |r| > 0 ==> !IsSpace(r[|r| - 1])
    decreases |s|
  {
    if |s| > 0 && IsSpace(s[|s| - 1]) then TrimEnd(s[..|s| - 1]) else s
  }

  /** Python's `s.strip()` with no argument. */
  function Strip(s: string): (r: string)
    ensures |r| == 0 <==> forall i :: 0 <= i < |s| ==> IsSpace(s[i])
    ensures |r| > 0 ==> !IsSpace(r[0]) && !IsSpace(r[|r| - 1])
    ensures exists a :: StrippedAt(s, r, a)
  {
    var t := TrimStart(s);
    var r := TrimEnd(t);
    CutBothEnds(s, t, r);
    r
  }

  /** `strip` is the only way to cut white space off both ends that leaves
      no white space at either end of what remains. */
  lemma {:induction false} StripUnique(s: string, r: string, a: nat)
    requires StrippedAt(s, r, a)
    requires |r| > 0 ==> !IsSpace(r[0]) && !IsSpace(r[|r| - 1])
    ensures Strip(s) == r
  {
    var q := Strip(s);
    var b :| StrippedAt(s, q, b);
    StrippedSame(s, r, a, q, b);
  }

  /** Two cuts of white space off the ends of `s` that both leave no white
      space at their ends leave the same text. */
  lemma StrippedSame(s: string, r: string, a: nat, q: string, b: nat)
    requires StrippedAt(s, r, a) && StrippedAt(s, q, b)
    requires |r| > 0 ==> !IsSpace(r[0]) && !IsSpace(r[|r| - 1])
    requires |q| > 0 ==> !IsSpace(q[0]) && !IsSpace(q[|q| - 1])
    ensures r == q
  {
  }

  /** Cutting white space off the front of `s`, giving `t`, and then off the
      back of `t`, giving `r`, leaves `r` inside `s` with white space around. */
  lemma CutBothEnds(s: string, t: string, r: string)
    requires |t| <= |s| && t == s[|s| - |t|..]
    requires forall i :: 0 <= i < |s| - |t| ==> IsSpace(s[i])
    requires |t| > 0 ==> !IsSpace(t[0])
    requires |r| <= |t| && r == t[..|r|]
    requires forall i :: |r| <= i < |t| ==> IsSpace(t[i])
    requires |r| > 0 ==> !IsSpace(r[|r| - 1])
    ensures |r| == 0 <==> forall i :: 0 <= i < |s| ==> IsSpace(s[i])
    ensures |r| > 0 ==> !IsSpace(r[0]) && !IsSpace(r[|r| - 1])
    ensures exists a :: StrippedAt(s, r, a)
  {
    var a := |s| - |t|;
    assert r == s[a..a + |r|];
    forall i | a + |r| <= i < |s|
      ensures IsSpace(s[i])
    {
      assert s[i] == t[i - a];
    }
    assert StrippedAt(s, r, a);
  }

  /** `r` is `s` from position `a` on, with only white space cut off on
      either side. */
  predicate StrippedAt(s: string, r: string, a: nat) {
    && a + |r| <= |s| && r == s[a..a + |r|]
    && (forall i :: 0 <= i < a ==> IsSpace(s[i]))
    && (forall i :: a + |r| <= i < |s| ==> IsSpace(s[i]))
  }

  // ---------------------------------------------------------------------------
  // int(re.sub("[^0-9]", "", s)) and str(n)

  /** `re.sub("[^0-9]", "", s)`: the ASCII digits of `s`, in order. */
  function DigitsOf(s: string): (r: string)
    ensures forall i :: 0 <= i < |r| ==> IsDigit(r[i])
    ensures |r| <= |s|
    decreases |s|
  {
    if |s| == 0 then ""
    else DigitsOf(s[..|s| - 1]) + (if IsDigit(s[|s| - 1]) then [s[|s| - 1]] else [])
  }

  function DigitValue(c: char): nat
    requires IsDigit(c)
  {
    (c as int - '0' as int) as nat
  }

  function DigitChar(d: nat): (c: char)
    requires d < 10
    ensures IsDigit(c) && DigitValue(c) == d
  {
    ('0' as int + d) as char
  }

  /** The value of a string of decimal digits, most significant first. */
  function DecimalValue(d: string): nat
    requires forall i :: 0 <= i < |d| ==> IsDigit(d[i])
    decreases |d|
  {
    if |d| == 0 then 0 else DecimalValue(d[..|d| - 1]) * 10 + DigitValue(d[|d| - 1])
  }

  /** Python's `int(re.sub("[^0-9]", "", s))`, `None` where `int` raises on an
      empty digit string, computed in one scan: each digit shifts the value
      read so far one decimal place, any other character is skipped. */
  function Numeric(s: string): Option<nat>
    decreases |s|
  {
    if |s| == 0 then None
    else
      var before := Numeric(s[..|s| - 1]);
      var c := s[|s| - 1];
      if !IsDigit(c) then before
      else Some((if before.None? then 0 else before.value) * 10 + DigitValue(c))
  }

  /** The scan agrees with filtering the digits and reading them as a
      decimal number. */
  lemma {:induction false} NumericDigits(s: string)
    ensures Numeric(s) == if |DigitsOf(s)| == 0 then None else Some(DecimalValue(DigitsOf(s)))
    decreases |s|
  {
    if |s| > 0 {
      var init := s[..|s| - 1];
      NumericDigits(init);
      var d := DigitsOf(s);
      var c := s[|s| - 1];
      if IsDigit(c) {
        assert d == DigitsOf(init) + [c];
        assert d[..|d| - 1] == DigitsOf(init) && d[|d| - 1] == c;
      } else {
        assert d == DigitsOf(init);
      }
    }
  }

  /** `int` raises exactly when `s` holds no digit. */
  lemma {:induction false} NumericSome(s: string)
    ensures Numeric(s).Some? <==> exists i :: 0 <= i < |s| && IsDigit(s[i])
    decreases |s|
  {
    if |s| > 0 {
      var init := s[..|s| - 1];
      NumericSome(init);
      if exists i :: 0 <= i < |init| && IsDigit(init[i]) {
        var i :| 0 <= i < |init| && IsDigit(init[i]);
        assert IsDigit(s[i]);
      }
      if exists i :: 0 <= i < |s| && IsDigit(s[i]) {
        var i :| 0 <= i < |s| && IsDigit(s[i]);
        if i < |s| - 1 {
          assert IsDigit(init[i]);
        }
      }
    }
  }

  /** Python's `str(n)` for a non-negative integer. */
  function NatToString(n: nat): (r: string)
    ensures |r| > 0
    ensures forall i :: 0 <= i < |r| ==> IsDigit(r[i])
    ensures DecimalValue(r) == n
    ensures r[0] == '0' ==> n == 0 && |r| == 1
    decreases n
  {
    if n < 10 then [DigitChar(n)]
    else
      var r := NatToString(n / 10) + [DigitChar(n % 10)];
      assert r[..|r| - 1] == NatToString(n / 10);
      r
  }

  /** `str` is injective on non-negative integers. */
  lemma NatToStringInjective(a: nat, b: nat)
    requires NatToString(a) == NatToString(b)
    ensures a == b
  {
    assert DecimalValue(NatToString(a)) == a;
  }
}

=== FILE: wrappers.dfy ===
/** Failure-compatible wrappers shared by every module of the subtitle model. */
module Wrappers {

  /** A value that may be absent: a cue field Python never set, a failed lookup. */
  datatype Option<+T> = None | Some(value: T)

  /** The outcome of a step that Python would abort by raising an exception. */
  datatype Result<+T, +E> = Ok(value: T) | Err(error: E)
}
